=== FILE: README.md ===
# Rebalanser follower role — a Dafny model

Rebalanser distributes a set of resources over a changing group of client
processes. The processes coordinate through a ZooKeeper ensemble. Every
client registers an ephemeral sequential node. The client with the lowest
sequence number is the leader. Each other client is a *follower*: it watches
its immediate predecessor and the shared status node. It then runs the client
side of a global barrier: StopActivity, ResourcesGranted, StartConfirmed.

This project models the follower role (`GlobalBarrier/Follower.cs`) as an
explicit state machine over immutable values:

- `Follower` (module `FollowerState`) holds the follower's state: the event
  queue, the disconnect stopwatch, the watch target, the in-flight-pass flag,
  the pass's cancellation source, the `ignoreWatches` flag and whether the
  resource store is started.
- Every operation is a pure function. It returns the new state and a trace
  of the externally visible actions it invoked: the stop and start
  callbacks, creating and removing the stopped marker, acknowledging session
  expiry, closing the session, and cancelling or launching a pass.
- The watch callback, one iteration of the main loop and the background
  rebalancing pass are separate atomic transitions. `Barrier.Execute` runs
  any interleaving of them.
- Calls into ZooKeeper and into the application become parameters. Each one
  is the call's reply, or the exception it raises (`FailureKind`). A pass's
  cancellation token is a `Cancellation`: the first checkpoint at which the
  token reads as cancelled. Every later checkpoint sees it too.

Modules: `Wrappers` (Option/Result), `Znodes` (status and resources node
contents, the assignment filter), `ClientPaths` (sequence-number suffix,
sibling id), `SiblingOrder` (predecessor selection), `FollowerState`,
`Rebalancing` (one pass and failure classification), `Watcher` (the watch
callback and the leader check), `EventLoop` (become follower, cleanup, loop
iteration), `Barrier` (whole-follower runs).

Two behaviours of the code are worth naming:

- The event loop does not always return an exit reason. An exception from
  the initial resource read (Follower.cs:234) or from the cleanup's stop
  callback (Follower.cs:368) escapes the loop. The model keeps these as
  `Escaped` outcomes (`CheckForRebalancing` returns the failure; `LoopStep`
  returns `Escaped`).
- Any phase other than StopActivity, ResourcesGranted and StartConfirmed is
  `OtherStatus`. A pass that reads it logs and does nothing (Follower.cs:351-354).

## Model

| member | source | states |
|---|---|---|
| `FollowerState.NewFollower` | src/Rebalanser.ZooKeeper/GlobalBarrier/Follower.cs:40-64 | construction fails exactly when the watched path has no '/'. A new follower has an empty queue, a stopped timer, no pass in flight and an uncancelled token. It listens to notifications and keeps the injected store's state. Its sibling id is the path's tail from the last '/': it starts with '/', has no other '/', and the path ends with it |
| `Znodes.AssignedTo` | src/Rebalanser.ZooKeeper/GlobalBarrier/Follower.cs:235-238 | a resource is in the result exactly when some assignment gives it to this client; the result is no longer than the assignment list |
| `Znodes.AssignedToAppend` | src/Rebalanser.ZooKeeper/GlobalBarrier/Follower.cs:317-320 | the filter keeps assignment order: filtering a concatenation is the concatenation of the filtered parts |
| `ClientPaths.SequenceNumber` | src/Rebalanser.ZooKeeper/GlobalBarrier/Follower.cs:424 | a number is read exactly when the path has at least ten characters, its last ten are digits, and their value fits a 32-bit integer; otherwise the parse throws |
| `ClientPaths.SequenceNumberOfSequentialPath` | src/Rebalanser.ZooKeeper/GlobalBarrier/Follower.cs:424 | any path ending in a zero-padded ten-digit number up to 2147483647 parses back to that number |
| `ClientPaths.DigitsValueOfPadDigits` | src/Rebalanser.ZooKeeper/GlobalBarrier/Follower.cs:424 | reading back a zero-padded decimal rendering of a number that fits the width returns the number |
| `ClientPaths.SiblingIdOf` | src/Rebalanser.ZooKeeper/GlobalBarrier/Follower.cs:439 | the sibling id is the path's tail from its last '/', so the path ends with it; it is absent exactly when the path has no '/' |
| `SiblingOrder.ParseClients` | src/Rebalanser.ZooKeeper/GlobalBarrier/Follower.cs:422-424 | parsing succeeds exactly when every client path carries a sequence number, and then pairs each path with its number, in order |
| `SiblingOrder.Predecessor` | src/Rebalanser.ZooKeeper/GlobalBarrier/Follower.cs:418-430 | no sibling is chosen exactly when no live number is below our own; otherwise the chosen sibling is live, below our own number, and at least as large as every other live number below it |
| `SiblingOrder.PredecessorIsFirstBest` | src/Rebalanser.ZooKeeper/GlobalBarrier/Follower.cs:425-429 | among siblings with equal numbers, the earliest in the listing is chosen |
| `SiblingOrder.MinIndex` | src/Rebalanser.ZooKeeper/GlobalBarrier/Follower.cs:432-435 | the returned position holds a smallest sequence number |
| `SiblingOrder.ExactlyOneLeader` | src/Rebalanser.ZooKeeper/GlobalBarrier/Follower.cs:418-435 | when sequence numbers are distinct, exactly one client finds no predecessor, and it is the one with the minimum number |
| `Watcher.PerformLeaderCheck` | src/Rebalanser.ZooKeeper/GlobalBarrier/Follower.cs:411-464 | one attempt. IsNewLeader is queued exactly when the listing succeeded and no live number is below ours. When a live number is below ours, the path has a '/' and the watch succeeds, the check completes quietly watching a largest number below ours. A retry is asked for exactly when the listing or the new watch raised ZkNoEphemeralNodeWatch. SessionExpired is queued exactly when the listing or the watch raised ZkSessionExpired. PotentialInconsistentState is queued exactly for any other exception, an unparsable listing, or a predecessor path without '/'. At most one event is queued. Only the watch target, the sibling id and the queue can change, and a failed listing or no live number below ours leaves the watch target and sibling id as they were |
| `Watcher.CheckAgainst` | src/Rebalanser.ZooKeeper/GlobalBarrier/Follower.cs:418-443 | against a successful listing, becoming leader happens exactly when no number is below ours, and then only the queue changes. When some number is below ours, the watch target becomes a path with the largest number below ours. The check completes quietly exactly when that path has a '/' and the watch succeeds. Session loss from the watch queues SessionExpired. An unparsable listing, a path without '/' or any other watch exception queues PotentialInconsistentState. Nothing but the watch target, sibling id and queue changes |
| `Watcher.WatchPredecessor` | src/Rebalanser.ZooKeeper/GlobalBarrier/Follower.cs:437-462 | the watch target moves to the predecessor before the watch call, even if that call fails, and the sibling id becomes the path's tail from its last '/'; a path without '/' leaves the sibling id as it was. The check completes quietly exactly when the path has a '/' and the watch succeeds. ZkNoEphemeralNodeWatch means retry. Session loss queues SessionExpired exactly. Any other exception, or a path without '/', queues PotentialInconsistentState exactly. Nothing but the watch target, sibling id and queue changes |
| `Watcher.PredecessorOfPaths` | src/Rebalanser.ZooKeeper/GlobalBarrier/Follower.cs:418-435 | the selection over parsed clients, read back on the raw paths: no predecessor exactly when no path's number is below ours; otherwise the chosen path has the largest number below ours |
| `Watcher.SendTriggerRebalancingEvent` | src/Rebalanser.ZooKeeper/GlobalBarrier/Follower.cs:217-230 | re-arming the status watch records the status version and queues RebalancingTriggered; if re-arming fails, PotentialInconsistentState is queued and the version is kept. The watch target, sibling id, timer and everything else stay as they were |
| `Watcher.Process` | src/Rebalanser.ZooKeeper/GlobalBarrier/Follower.cs:67-116 | when cancelled or ignoring watches, nothing changes. Expired queues SessionExpired. Disconnected starts the timer from zero, leaves a running timer alone, and changes nothing else. A connected state resets the timer. Deleting a path other than the sibling resets the timer, queues PotentialInconsistentState and changes nothing else. Deleting the sibling runs the leader check on the reset follower. A status data change re-arms the status watch: RebalancingTriggered is queued exactly when that succeeds, and PotentialInconsistentState when it fails. Any other state queues PotentialInconsistentState. At most one event is queued. |
| `Watcher.ThreeClientScenario` | src/Rebalanser.ZooKeeper/GlobalBarrier/Follower.cs:91-96 | clients 1, 2, 3: when client 2's node is deleted, client 3 moves its watch to client 1 and queues nothing |
| `Watcher.ClientThreeWatchesClientOne` | src/Rebalanser.ZooKeeper/GlobalBarrier/Follower.cs:418-442 | with clients 1 and 3 live, client 3's leader check chooses client 1 and does not become leader |
| `Watcher.LowestClientBecomesLeader` | src/Rebalanser.ZooKeeper/GlobalBarrier/Follower.cs:432-435 | with clients 1, 2, 3 live, client 1's leader check queues IsNewLeader |
| `FollowerState.ExitReasonFor` | src/Rebalanser.ZooKeeper/GlobalBarrier/Follower.cs:162-179 | every event except RebalancingTriggered ends the loop, never with Cancelled |
| `FollowerState.AlternatesAppend` | src/Rebalanser.ZooKeeper/GlobalBarrier/Follower.cs:324-339 | the start-only-while-stopped discipline and the store's started state compose over consecutive action traces |
| `FollowerState.AlternatesStopBetweenStarts` | src/Rebalanser.ZooKeeper/GlobalBarrier/Follower.cs:324-339 | in a trace that keeps the discipline, every start is preceded by a stop with no start in between, unless the store began stopped and no earlier start occurred |
| `Rebalancing.ProcessStatusChange` | src/Rebalanser.ZooKeeper/GlobalBarrier/Follower.cs:292-357 | a failed status read aborts the pass with no actions. Cancellation seen at the phase check gives Cancelled with no actions. StartConfirmed and unknown phases do nothing and complete. A raising call ends the pass with its exception at that call: a failed resources read before any action, a raising stop callback right after the stop and before any marker or start, a raising start callback with start as the last action. The stopped marker is never created after a raising stop, and never removed after a raising stop or start. A cancellation seen after a successful stop in StopActivity, or seen before or after a successful start in ResourcesGranted, ends the pass as Cancelled. A pass whose token is never cancelled and whose calls all succeed completes. A completed StopActivity pass stopped and then created the marker. A completed ResourcesGranted pass ended by starting with this client's resources and removing the marker. Cancelled is returned only when a checkpoint saw the cancellation. Exceptions come only from the environment. Start never runs while the store is started. |
| `Rebalancing.PassActionOrder` | src/Rebalanser.ZooKeeper/GlobalBarrier/Follower.cs:301-346 | a pass performs only pass actions. The stopped marker is created only in StopActivity, after a stop, and only if no cancellation was seen after stopping. A stop happens only in StopActivity or to stop a started store in ResourcesGranted. |
| `Rebalancing.PassStartOrder` | src/Rebalanser.ZooKeeper/GlobalBarrier/Follower.cs:312-346 | start happens only in ResourcesGranted and gets exactly this client's filtered resources. It comes after a stop when the store was started, and runs only when not cancelled. The marker is removed only after start and only if still not cancelled. |
| `Rebalancing.StopActivityPass` | src/Rebalanser.ZooKeeper/GlobalBarrier/Follower.cs:301-311 | the StopActivity reaction always invokes stop first. A raising stop callback ends the pass with that exception and no marker. Otherwise the marker is created, and nothing else, only if no cancellation was seen after stopping; a failing marker write ends the pass with its exception. After a successful stop, Cancelled is returned exactly when that check saw the cancellation, and then stop is the only action. With no cancellation and no exception it completes, having stopped and created the marker. |
| `Rebalancing.ResourcesGrantedPass` | src/Rebalanser.ZooKeeper/GlobalBarrier/Follower.cs:312-346 | the ResourcesGranted reaction never starts a store that is still started. It stops the store only when it was started, and never creates the stopped marker. A failed resources read ends the pass before any action. A raising stop callback ends it right after the stop. A raising start callback ends it with start, given this client's resources, as the last action. A cancellation seen before the start, after a successful read and any stop, ends it as Cancelled with that stop as the only action; one seen after a successful start ends it as Cancelled with start as the last action. The marker is removed only after a successful read, stop and start, and a failing removal ends the pass with its exception. Cancelled is returned only when a checkpoint saw the cancellation. With the resources read succeeding, no cancellation and no exception, it completes. |
| `Rebalancing.RespondToRebalancing` | src/Rebalanser.ZooKeeper/GlobalBarrier/Follower.cs:244-290 | nothing is queued exactly for a returned result or an operation-cancelled failure; SessionExpired exactly for session loss; FatalError exactly for terminate-client; PotentialInconsistentState for every other failure |
| `EventLoop.BecomeFollower` | src/Rebalanser.ZooKeeper/GlobalBarrier/Follower.cs:118-141 | watches are always re-enabled. The result is Ok exactly when both watch registrations succeed. It is WatchSiblingGone exactly when the first failing registration raised ZkNoEphemeralNodeWatch. Any other failure gives Error. |
| `EventLoop.CheckForRebalancing` | src/Rebalanser.ZooKeeper/GlobalBarrier/Follower.cs:232-242 | a failing read escapes; otherwise RebalancingTriggered is queued exactly when some assignment names this client, and nothing else changes |
| `EventLoop.RunPass` | src/Rebalanser.ZooKeeper/GlobalBarrier/Follower.cs:192-193 | with no pass in flight nothing happens. Otherwise the pass's actions are performed, the event its outcome calls for is queued, and the pass completes. A pass sees a cancellation only if its token source was cancelled: with an uncancelled source it runs as an uncancelled pass, never ends as Cancelled, and queues nothing when all its calls succeed. A pass changes only the in-flight flag, the store's state and the queue; the watch target, sibling id, status version and timer stay. The store's state follows the actions, and start never runs while the store is started. |
| `EventLoop.CancelRebalancingIfInProgress` | src/Rebalanser.ZooKeeper/GlobalBarrier/Follower.cs:372-389 | a no-op when no pass is in flight. Otherwise the pass is cancelled and run to its end: the trace is the cancellation followed by that pass's actions, the event its outcome calls for is appended to the queue, and a new, uncancelled cancellation source (a later generation) replaces the old one. Only the in-flight flag (now clear), the token source, the store's state and the queue change |
| `EventLoop.CleanUp` | src/Rebalanser.ZooKeeper/GlobalBarrier/Follower.cs:359-370 | notifications are always ignored afterwards, no pass is left in flight, the store is stopped, and the stop callback is always invoked last; a pass is cancelled exactly when one was in flight; the stop callback's exception, if any, is passed on. Nothing but those flags, the token source and the queue changes |
| `EventLoop.Finish` | src/Rebalanser.ZooKeeper/GlobalBarrier/Follower.cs:164-179 | every terminal exit first cleans up; the exit reason is returned exactly when the stop callback did not raise. The expiry acknowledgement comes first and the session close last. The trace cancels a pass exactly when one was in flight. Only the cleanup's fields, the token source and the queue change |
| `EventLoop.Trigger` | src/Rebalanser.ZooKeeper/GlobalBarrier/Follower.cs:188-194 | the last queued trigger cancels any pass in flight before launching exactly one new pass. With no pass in flight the queue is unchanged; otherwise it gains only the event the cancelled pass's outcome calls for. Only the in-flight flag (now set), the token source, the store's state and the queue change |
| `EventLoop.LoopStep` | src/Rebalanser.ZooKeeper/GlobalBarrier/Follower.cs:150-212 | cancellation exits with Cancelled after closing the session. A timer past the session timeout exits with SessionExpired after acknowledging it. Either way the exit reason is returned exactly when cleanup's stop callback does not raise. An escaping exception is always that stop callback's. An empty queue changes nothing. Otherwise the head of the queue is taken. Every exit has cleaned up, and its trace cancels a pass exactly when one was in flight. An iteration that continues changes only the pass, its token source, the store's state and the queue, which keeps all but its head in order. A token that was not cancelled is not left cancelled. |
| `EventLoop.TakeEvent` | src/Rebalanser.ZooKeeper/GlobalBarrier/Follower.cs:159-201 | whatever event is taken, an escaping exception is always the stop callback's. Every exit has cleaned up: the stop callback ran, notifications are ignored, no pass is in flight, and a pass was cancelled exactly when one was in flight. An iteration that continues changes only the pass, its token source, the store's state and the queue, which loses its head and keeps the rest in order. A token that was not cancelled is not left cancelled, and start never runs while the store is started. |
| `EventLoop.TakeEventReaction` | src/Rebalanser.ZooKeeper/GlobalBarrier/Follower.cs:159-201 | a terminal event ends the loop. When cleanup's stop callback does not raise, the exit reason is the event's own. A queued SessionExpired, and no other event, is acknowledged before cleanup. A trigger with other events queued behind it is dropped. The last trigger launches one pass after cancelling the one in flight. |
| `EventLoop.Coalesce` | src/Rebalanser.ZooKeeper/GlobalBarrier/Follower.cs:181-196 | a trigger taken from the queue changes nothing while other events remain queued. When it was the last, one pass is launched, after cancelling the pass in flight, and the launch is the only one in the trace. Only the pass, its token source, the store's state and the queue change, and the queue keeps what it held, in order |
| `EventLoop.Terminate` | src/Rebalanser.ZooKeeper/GlobalBarrier/Follower.cs:164-179 | a terminal event always leaves the loop after cleanup, with the event's exit reason exactly when the stop callback did not raise. Only a session expiry is acknowledged first. A pass is cancelled exactly when one was in flight, and only the cleanup's fields, the token source and the queue change |
| `EventLoop.Elapse` | src/Rebalanser.ZooKeeper/GlobalBarrier/Follower.cs:152 | a running disconnect timer advances by the elapsed time, a stopped one stays stopped, and nothing else changes |
| `EventLoop.TriggersCoalesce` | src/Rebalanser.ZooKeeper/GlobalBarrier/Follower.cs:181-196 | with N triggers queued, N loop iterations launch exactly one pass, in the last iteration, after cancelling any pass in flight |
| `EventLoop.DisconnectTimerMeasuresFromFirst` | src/Rebalanser.ZooKeeper/GlobalBarrier/Follower.cs:82-85 | after repeated disconnect notifications, the timer shows the time since the first one and nothing is queued |
| `EventLoop.RunningTimerAccumulates` | src/Rebalanser.ZooKeeper/GlobalBarrier/Follower.cs:82-85 | a disconnect notification does not restart a running timer |
| `EventLoop.DisconnectBecomesExpiry` | src/Rebalanser.ZooKeeper/GlobalBarrier/Follower.cs:152-157 | a disconnect with no reconnection within the session timeout ends the loop with SessionExpired, after acknowledging the expiry, however many further disconnects arrive |
| `Barrier.Apply` | src/Rebalanser.ZooKeeper/GlobalBarrier/Follower.cs:67-389 | no single transition of the follower starts the store while it is started. Each keeps the store's state in line with its actions. None leaves an uncancelled token cancelled. |
| `Barrier.BarrierHolds` | src/Rebalanser.ZooKeeper/GlobalBarrier/Follower.cs:301-346 | in any interleaving of callbacks, loop iterations and passes, start is never invoked while the store is started |
| `Barrier.BarrierStopBetweenStarts` | src/Rebalanser.ZooKeeper/GlobalBarrier/Follower.cs:324-339 | in any run, every start is preceded by a stop with no start in between, unless the store began stopped and no earlier start occurred |
| `Barrier.TokenNeverLeftCancelled` | src/Rebalanser.ZooKeeper/GlobalBarrier/Follower.cs:372-389 | in any run from an uncancelled token, the token is uncancelled after every step, because cancelling always installs a fresh source (line 387). So a pass that finishes on its own never sees a cancellation. |

## Left out

- Logging is not modelled. This includes the warning when the status
  version read differs from the notified one (Follower.cs:295-296), which
  has no other effect.
- Concurrency is not modelled. The watch callback, the loop and the pass
  are atomic transitions that may interleave in any order; the thread-safe
  queue is a plain sequence.
- Real time is not modelled. Elapsed time is an abstract number added by
  `Elapse`. The one-second poll and the one-second retry wait are no-ops.
  The settle delay before start (`onStartDelay`) is a cancellable wait with
  no action, so it does not appear.
- The leader check's retry loop (Follower.cs:414, 446-451) is not unrolled.
  `PerformLeaderCheck` is one attempt that reports `CheckRetry`, because
  termination depends on outside membership changes.
- `ClientPaths.SequenceNumber`: reads only ten plain digits. `int.Parse`
  also accepts leading or trailing white space and a sign. ZooKeeper's
  per-parent sequence counter is a signed 32-bit integer that wraps after
  2147483647, so a name can end in "-000000001". `int.Parse` reads that as
  a negative number, which the selection loop at Follower.cs:425 never
  picks. The model rejects such a name instead, and the whole leader check
  then queues PotentialInconsistentState. Lists that wrapped past the
  32-bit counter are therefore outside the model.
- `EndsWith` is culture-sensitive in the source. The model compares
  ordinally.
- Null event paths are not modelled: the path is a string. Only session
  notifications lack a path, and they never reach the path tests.
- The `default` branch of `RespondToRebalancing` (Follower.cs:259-263) is
  not modelled. It cannot be reached, because a pass only returns Complete
  or Cancelled.
- The catch when awaiting a cancelled pass (Follower.cs:382-386) is not
  modelled. `RespondToRebalancing` catches every exception, so the await
  can only fail if logging fails.
- `SessionExpired()` and `CloseSessionAsync()` always succeed in the model.
  Their own exceptions are not modelled.
- The resource store (`ResourceManager`) is not part of this model. Its
  started state is taken to be cleared when the stop callback is invoked
  and set when the start callback is invoked.
- The leader role is not part of this model, nor is the application's
  start/stop business logic. The ZooKeeper transport (watch registration,
  reads, writes) is not modelled either: only the replies it gives and the
  exceptions it raises appear.
- `EventLoop.CancelRebalancingIfInProgress`: how the cancelled pass ends is
  a free parameter. The model does not tie the checkpoint at which the pass
  sees the cancellation to the moment the loop cancels it. A pass that
  finishes on its own (`FinishPass`) runs with an uncancelled token, since
  no run leaves the token cancelled (`Barrier.TokenNeverLeftCancelled`).
- `Watcher.KeeperState` lists the ZooKeeper session states. Any state other
  than Expired, Disconnected, SyncConnected and ConnectedReadOnly takes the
  unsupported-state branch, as in the source.

=== FILE: barrier.dfy ===
/**
 * The follower as a whole: its watch callback, its main loop and its
 * background rebalancing pass are separate atomic transitions that may
 * interleave in any order. Whatever the interleaving, the application's
 * start callback is never invoked while its resources are still started.
 */
module Barrier {
  import opened Wrappers
  import opened Znodes
  import opened FollowerState
  import opened Rebalancing
  import opened Watcher
  import opened EventLoop

  datatype Transition =
    | Become(siblingWatch: Option<FailureKind>, statusWatch: Option<FailureKind>)
    | Enter(resources: Result<ResourcesZnode, FailureKind>)
    | Notify(ev: WatchedEvent, replies: ZkReplies)
    | RetryLeaderCheck(replies: ZkReplies)
    | Iterate(env: LoopEnv)
    | FinishPass(pass: PassEnv)
    | Wait(dt: nat)
    | CancelFollower

  /** One transition of the follower. */
  function Apply(f: Follower, t: Transition): (r: Effect)
    ensures Alternates(f.storeStarted, r.trace)
    ensures r.follower.storeStarted == StartedAfter(f.storeStarted, r.trace)
    // only cancelling a pass cancels its token, and that installs a fresh source at once
    ensures !f.rebalancingCts.cancelled ==> !r.follower.rebalancingCts.cancelled
  {
    match t
    case Become(sw, st) => Effect(BecomeFollower(f, sw, st).0, [])
    case Enter(resources) =>
      var checked := CheckForRebalancing(f, resources);
      Effect(if checked.Success? then checked.value else f, [])
    case Notify(ev, replies) => Effect(Process(f, ev, replies).follower, [])
    case RetryLeaderCheck(replies) => Effect(PerformLeaderCheck(f, replies).follower, [])
    case Iterate(env) =>
      var s := LoopStep(f, env);
      Effect(s.follower, s.trace)
    case FinishPass(env) => RunPass(f, env)
    case Wait(dt) => Effect(Elapse(f, dt), [])
    case CancelFollower => Effect(f.(lifetimeCancelled := true), [])
  }

  /** A run of transitions and the actions it performs, in order. */
  function Execute(f: Follower, ts: seq<Transition>): Effect
    decreases |ts|
  {
    if ts == [] then Effect(f, [])
    else
      var first := Apply(f, ts[0]);
      var rest := Execute(first.follower, ts[1..]);
      Effect(rest.follower, first.trace + rest.trace)
  }

  /** Barrier ordering: in any run, every start callback is invoked while the
      store is stopped, and the store's state follows the actions performed. */
  lemma {:induction false} BarrierHolds(f: Follower, ts: seq<Transition>)
    ensures Alternates(f.storeStarted, Execute(f, ts).trace)
    ensures Execute(f, ts).follower.storeStarted == StartedAfter(f.storeStarted, Execute(f, ts).trace)
    decreases |ts|
  {
    if ts != [] {
      var first := Apply(f, ts[0]);
      BarrierHolds(first.follower, ts[1..]);
      AlternatesAppend(f.storeStarted, first.trace, Execute(first.follower, ts[1..]).trace);
    }
  }

  /** No run leaves the pass's token cancelled: a cancellation is always
      followed, in the same step, by a fresh source. So a pass that finishes
      on its own (FinishPass) never sees a cancellation; only the pass that
      cleanup or a new trigger cancels does. */
  lemma {:induction false} TokenNeverLeftCancelled(f: Follower, ts: seq<Transition>)
    requires !f.rebalancingCts.cancelled
    ensures !Execute(f, ts).follower.rebalancingCts.cancelled
    decreases |ts|
  {
    if ts != [] {
      TokenNeverLeftCancelled(Apply(f, ts[0]).follower, ts[1..]);
    }
  }

  /** The same guarantee read on positions: every start in a run is preceded
      by a stop with no start in between, unless the store began stopped and
      it is the first start. */
  lemma BarrierStopBetweenStarts(f: Follower, ts: seq<Transition>)
    ensures StopBetweenStarts(f.storeStarted, Execute(f, ts).trace)
  {
    BarrierHolds(f, ts);
    AlternatesStopBetweenStarts(f.storeStarted, Execute(f, ts).trace);
  }
}

=== FILE: client_paths.dfy ===
/**
 * Client registration paths. A client registers an ephemeral sequential node
 * whose name ends with the ten-digit, zero-padded sequence number the
 * coordination service appends; the follower reads that number back from the
 * last ten characters of the path and identifies a sibling by the part of its
 * path that starts at the last '/'.
 */
module ClientPaths {
  import opened Wrappers

  /** Number of characters of the sequence suffix. */
  const SuffixLength: nat := 10

  /** Largest value of the 32-bit signed integer the suffix is parsed into. */
  const Int32Max: nat := 2147483647

  predicate IsDigit(c: char) {
    '0' <= c <= '9'
  }

  predicate AllDigits(s: string) {
    forall i :: 0 <= i < |s| ==> IsDigit(s[i])
  }

  function DigitChar(d: nat): (c: char)
    requires d < 10
    ensures IsDigit(c)
  {
    ('0' as int + d) as char
  }

  function DigitValue(c: char): (d: nat)
    requires IsDigit(c)
    ensures d < 10
  {
    c as int - '0' as int
  }

  /** Decimal value of a digit string, most significant digit first. */
  function DigitsValue(s: string): nat
    requires AllDigits(s)
  {
    if s == [] then 0 else DigitsValue(s[..|s| - 1]) * 10 + DigitValue(s[|s| - 1])
  }

  function Pow10(k: nat): (p: nat)
    ensures p > 0
  {
    if k == 0 then 1 else 10 * Pow10(k - 1)
  }

  /** `n` written with exactly `width` decimal digits, zero-padded on the left
      (the format the coordination service uses for sequential node names). */
  function PadDigits(n: nat, width: nat): (s: string)
    ensures |s| == width
    ensures AllDigits(s)
  {
    if width == 0 then [] else PadDigits(n / 10, width - 1) + [DigitChar(n % 10)]
  }

  /** Reading back a zero-padded number gives the number, when it fits the width. */
  lemma {:induction false} DigitsValueOfPadDigits(n: nat, width: nat)
    requires n < Pow10(width)
    ensures DigitsValue(PadDigits(n, width)) == n
    decreases width
  {
    if width > 0 {
      var s := PadDigits(n, width);
      assert s[..|s| - 1] == PadDigits(n / 10, width - 1);
      assert DigitValue(DigitChar(n % 10)) == n % 10;
      assert n / 10 < Pow10(width - 1);
      DigitsValueOfPadDigits(n / 10, width - 1);
    }
  }

  /** The sequence number at the end of a client path: the last ten characters
      parsed as a 32-bit integer. None where the parse would throw: the path is
      shorter than ten characters, the suffix is not all digits, or its value
      overflows a 32-bit integer. */
  function SequenceNumber(path: string): (r: Option<nat>)
    ensures r.Some? <==>
      |path| >= SuffixLength
      && AllDigits(path[|path| - SuffixLength..])
      && DigitsValue(path[|path| - SuffixLength..]) <= Int32Max
    ensures r.Some? ==> r.value <= Int32Max
  {
    if |path| < SuffixLength then None
    else
      var suffix := path[|path| - SuffixLength..];
      if AllDigits(suffix) && DigitsValue(suffix) <= Int32Max then Some(DigitsValue(suffix)) else None
  }

  lemma Pow10Ten()
    ensures Pow10(SuffixLength) == 10000000000
  {
  }

  /** A path made of any prefix and a zero-padded sequence number that fits a
      32-bit integer parses back to that number. */
  lemma SequenceNumberOfSequentialPath(prefix: string, n: nat)
    requires n <= Int32Max
    ensures SequenceNumber(prefix + PadDigits(n, SuffixLength)) == Some(n)
  {
    var path := prefix + PadDigits(n, SuffixLength);
    assert path[|path| - SuffixLength..] == PadDigits(n, SuffixLength);
    Pow10Ten();
    DigitsValueOfPadDigits(n, SuffixLength);
  }

  /** `s` ends with `suffix` (ordinal comparison). */
  predicate EndsWith(s: string, suffix: string) {
    |suffix| <= |s| && s[|s| - |suffix|..] == suffix
  }

  /** Index of the last '/' in `path`, None when there is none. */
  function LastSlash(path: string): (r: Option<nat>)
    ensures r.Some? ==> r.value < |path| && path[r.value] == '/'
    ensures r.Some? ==> forall j :: r.value < j < |path| ==> path[j] != '/'
    ensures r.None? <==> forall j :: 0 <= j < |path| ==> path[j] != '/'
    decreases |path|
  {
    if path == [] then None
    else if path[|path| - 1] == '/' then Some(|path| - 1)
    else LastSlash(path[..|path| - 1])
  }

  /** The sibling identifier of a path: its tail from the last '/' on. None
      where taking that substring would throw, that is, when the path has no '/'. */
  function SiblingIdOf(path: string): (r: Option<string>)
    ensures r.None? <==> '/' !in path
    ensures r.Some? ==> EndsWith(path, r.value)
    ensures r.Some? ==> |r.value| > 0 && r.value[0] == '/' && '/' !in r.value[1..]
  {
    match LastSlash(path)
    case None => None
    case Some(i) =>
      assert path[|path| - |path[i..]|..] == path[i..];
      Some(path[i..])
  }
}

=== FILE: event_loop.dfy ===
/**
 * The follower's main loop: becoming a follower, the initial check for
 * resources already assigned, one iteration of the loop (timer check, then
 * one event taken from the queue), the rebalancing pass running beside it,
 * and the cleanup that runs on every exit.
 */
module EventLoop {
  import opened Wrappers
  import opened Znodes
  import opened FollowerState
  import opened Rebalancing
  import opened Watcher

  /** Register the sibling watch and then the status watch; `siblingWatch`
      and `statusWatch` are the exceptions those calls raise, if any. */
  function BecomeFollower(f: Follower, siblingWatch: Option<FailureKind>, statusWatch: Option<FailureKind>):
    (r: (Follower, BecomeFollowerResult))
    ensures r.0 == f.(ignoreWatches := false)
    ensures r.1 == Ok <==> siblingWatch.None? && statusWatch.None?
    ensures r.1 == WatchSiblingGone <==>
      siblingWatch == Some(ZkNoEphemeralNodeWatch) ||
      (siblingWatch.None? && statusWatch == Some(ZkNoEphemeralNodeWatch))
  {
    var listening := f.(ignoreWatches := false);
    var fault := if siblingWatch.Some? then siblingWatch else statusWatch;
    match fault
    case None => (listening, Ok)
    case Some(ZkNoEphemeralNodeWatch) => (listening, WatchSiblingGone)
    case Some(_) => (listening, Error)
  }

  /** Before the loop starts: if resources are already assigned to this
      client, a rebalancing may have been missed, so trigger one. A failing
      read escapes the loop. */
  function CheckForRebalancing(f: Follower, resources: Result<ResourcesZnode, FailureKind>):
    (r: Result<Follower, FailureKind>)
    ensures r.Failure? <==> resources.Failure?
    ensures r.Success? ==>
      (r.value == Enqueue(f, RebalancingTriggered) <==>
         exists a :: a in resources.value.assignments && a.clientId == f.config.clientId)
    ensures r.Success? ==> r.value == f || r.value == Enqueue(f, RebalancingTriggered)
  {
    match resources
    case Failure(e) => Failure(e)
    case Success(znode) =>
      var granted := AssignedTo(znode.assignments, f.config.clientId);
      if |granted| > 0 then
        assert granted[0] in granted;
        Success(Enqueue(f, RebalancingTriggered))
      else
        assert forall a :: a in znode.assignments && a.clientId == f.config.clientId ==> a.resource in granted;
        assert f != Enqueue(f, RebalancingTriggered) by {
          assert |Enqueue(f, RebalancingTriggered).events| == |f.events| + 1;
        }
        Success(f)
  }

  /** What the checkpoints of a pass see of its token: nothing while the
      source is uncancelled; once it is cancelled, `c` gives the first
      checkpoint that sees it (NotCancelled when the pass was already past its
      last checkpoint). */
  function TokenSeen(cts: TokenSource, c: Cancellation): Cancellation {
    if cts.cancelled then c else NotCancelled
  }

  /** The background rebalancing pass runs to its end: it performs its
      actions, updates the store, queues the event its outcome calls for and
      completes. Nothing happens when no pass is in flight. */
  function RunPass(f: Follower, env: PassEnv): (r: Effect)
    ensures !f.passInFlight ==> r == Effect(f, [])
    ensures !r.follower.passInFlight
    ensures f.passInFlight ==>
      var run := ProcessStatusChange(f.config.clientId, f.storeStarted, env.(cancel := TokenSeen(f.rebalancingCts, env.cancel)));
      r.trace == run.trace && r.follower.events == f.events + EventsOf(RespondToRebalancing(run.outcome))
    // a pass whose token nobody cancelled runs as an uncancelled pass, so it never
    // ends as cancelled, and completes when every call it makes succeeds
    ensures f.passInFlight && !f.rebalancingCts.cancelled ==>
      var run := ProcessStatusChange(f.config.clientId, f.storeStarted, env.(cancel := TokenSeen(f.rebalancingCts, env.cancel)));
      run == ProcessStatusChange(f.config.clientId, f.storeStarted, env.(cancel := NotCancelled)) &&
      run.outcome != Success(RebalancingResult.Cancelled) && r.trace == run.trace
    ensures (f.passInFlight && !f.rebalancingCts.cancelled && env.status.Success? &&
             env.stopFault.None? && env.startFault.None? && env.markerFault.None? &&
             (PhaseIs(env, ResourcesGranted) ==> env.resources.Success?)) ==>
      r.follower.events == f.events
    ensures Alternates(f.storeStarted, r.trace)
    ensures r.follower.storeStarted == StartedAfter(f.storeStarted, r.trace)
    ensures r.follower.config == f.config && r.follower.rebalancingCts == f.rebalancingCts
    ensures r.follower.ignoreWatches == f.ignoreWatches && r.follower.disconnectedTimer == f.disconnectedTimer
    ensures r.follower.lifetimeCancelled == f.lifetimeCancelled
    // a pass touches only the in-flight flag, the store's state and the queue
    ensures r.follower == f.(passInFlight := r.follower.passInFlight, storeStarted := r.follower.storeStarted,
                             events := r.follower.events)
    ensures forall i :: 0 <= i < |r.trace| ==> r.trace[i].IsPassAction()
  {
    if !f.passInFlight then Effect(f, [])
    else
      var seen := env.(cancel := TokenSeen(f.rebalancingCts, env.cancel));
      var run := ProcessStatusChange(f.config.clientId, f.storeStarted, seen);
      PassActionOrder(f.config.clientId, f.storeStarted, seen);
      var done := f.(passInFlight := false,
                     storeStarted := StartedAfter(f.storeStarted, run.trace),
                     events := f.events + EventsOf(RespondToRebalancing(run.outcome)));
      Effect(done, run.trace)
  }

  /** Cancel the pass in flight, wait for it to finish (`drain` says how it
      ends), and install a fresh cancellation source. A no-op when no pass is
      in flight. */
  function CancelRebalancingIfInProgress(f: Follower, drain: PassEnv): (r: Effect)
    ensures !f.passInFlight ==> r == Effect(f, [])
    ensures f.passInFlight ==>
      |r.trace| > 0 && r.trace[0] == CancelPass &&
      r.follower.rebalancingCts.generation > f.rebalancingCts.generation &&
      !r.follower.rebalancingCts.cancelled
    // the cancelled pass is run to its end: its actions are performed and the event its outcome calls for is queued
    ensures f.passInFlight ==>
      var run := ProcessStatusChange(f.config.clientId, f.storeStarted, drain);
      r.trace == [CancelPass] + run.trace && r.follower.events == f.events + EventsOf(RespondToRebalancing(run.outcome))
    // only the pass, its cancellation source, the store's state and the queue change
    ensures r.follower == f.(passInFlight := false, rebalancingCts := r.follower.rebalancingCts,
                             storeStarted := r.follower.storeStarted, events := r.follower.events)
    ensures Alternates(f.storeStarted, r.trace)
    ensures r.follower.storeStarted == StartedAfter(f.storeStarted, r.trace)
    ensures forall i :: 0 <= i < |r.trace| ==> r.trace[i] != LaunchPass
  {
    if !f.passInFlight then Effect(f, [])
    else
      var cancelling := f.(rebalancingCts := f.rebalancingCts.(cancelled := true));
      var drained := RunPass(cancelling, drain);
      var renewed := drained.follower.(rebalancingCts := TokenSource(f.rebalancingCts.generation + 1, false));
      assert [CancelPass][1..] == [];
      AlternatesAppend(f.storeStarted, [CancelPass], drained.trace);
      Effect(renewed, [CancelPass] + drained.trace)
  }

  /** Cleanup on every exit: ignore further notifications, cancel the pass in
      flight, then always invoke the stop callback. `stopFault` is the
      exception the stop callback raises, if any; it escapes the cleanup. */
  datatype Cleaned = Cleaned(follower: Follower, trace: seq<Action>, fault: Option<FailureKind>)

  function CleanUp(f: Follower, drain: PassEnv, stopFault: Option<FailureKind>): (r: Cleaned)
    ensures |r.trace| > 0 && r.trace[|r.trace| - 1] == StopCallback
    ensures r.fault == stopFault
    ensures f.passInFlight <==> CancelPass in r.trace
    ensures Alternates(f.storeStarted, r.trace)
    ensures !StartedAfter(f.storeStarted, r.trace)
    ensures r.follower == f.(ignoreWatches := true, passInFlight := false, rebalancingCts := r.follower.rebalancingCts,
                             storeStarted := false, events := r.follower.events)
    ensures !f.rebalancingCts.cancelled ==> !r.follower.rebalancingCts.cancelled
    ensures forall i :: 0 <= i < |r.trace| ==> r.trace[i] != LaunchPass
  {
    var cancelled := CancelRebalancingIfInProgress(f.(ignoreWatches := true), drain);
    assert [StopCallback][1..] == [];
    AlternatesAppend(f.storeStarted, cancelled.trace, [StopCallback]);
    Cleaned(cancelled.follower.(storeStarted := false), cancelled.trace + [StopCallback], stopFault)
  }

  /** What the loop's collaborators do during one iteration: how a pass that
      is cancelled ends, and the exception the cleanup's stop callback raises. */
  datatype LoopEnv = LoopEnv(drain: PassEnv, stopFault: Option<FailureKind>)

  datatype LoopOutcome =
    | Continue
    | Exit(reason: FollowerExitReason)
    | Escaped(failure: FailureKind)  // an exception propagates out of the loop

  datatype Step = Step(follower: Follower, outcome: LoopOutcome, trace: seq<Action>)

  /** Leave the loop through cleanup, with `reason` unless the stop callback
      raised. `before` is the session-expiry acknowledgement, if any, and
      `after` the closing of the session, if any. */
  function Finish(f: Follower, env: LoopEnv, before: seq<Action>, reason: FollowerExitReason, after: seq<Action>):
    (r: Step)
    requires before == [] || before == [AcknowledgeSessionExpiry]
    requires after == [] || after == [CloseSession]
    ensures r.outcome == Exit(reason) || (env.stopFault.Some? && r.outcome == Escaped(env.stopFault.value))
    ensures env.stopFault.None? <==> r.outcome == Exit(reason)
    ensures |r.trace| > |before| && r.trace[..|before|] == before
    ensures r.outcome.Exit? && after != [] ==> r.trace[|r.trace| - 1] == after[0]
    ensures StopCallback in r.trace && r.follower.ignoreWatches && !r.follower.passInFlight
    // cleanup cancels the pass in flight, and only then
    ensures f.passInFlight <==> CancelPass in r.trace
    ensures r.follower == f.(ignoreWatches := true, passInFlight := false, rebalancingCts := r.follower.rebalancingCts,
                             storeStarted := false, events := r.follower.events)
    ensures !f.rebalancingCts.cancelled ==> !r.follower.rebalancingCts.cancelled
    ensures Alternates(f.storeStarted, r.trace)
    ensures r.follower.storeStarted == StartedAfter(f.storeStarted, r.trace)
  {
    var cleaned := CleanUp(f, env.drain, env.stopFault);
    assert f.passInFlight <==> CancelPass in cleaned.trace;
    Close(f.storeStarted, cleaned, before, reason, after)
  }

  /** The loop's last step after cleanup: the expiry acknowledgement, if any,
      comes before the cleanup's actions and the closing of the session, if
      any, after them; neither starts or stops the store or cancels a pass. */
  function Close(started: bool, cleaned: Cleaned, before: seq<Action>, reason: FollowerExitReason, after: seq<Action>):
    (r: Step)
    requires before == [] || before == [AcknowledgeSessionExpiry]
    requires after == [] || after == [CloseSession]
    ensures r.follower == cleaned.follower
    ensures r.outcome == (if cleaned.fault.Some? then Escaped(cleaned.fault.value) else Exit(reason))
    ensures |r.trace| >= |before| + |cleaned.trace| && r.trace[..|before|] == before
    ensures r.outcome.Exit? && after != [] ==> |r.trace| > 0 && r.trace[|r.trace| - 1] == after[0]
    ensures StopCallback in cleaned.trace ==> StopCallback in r.trace
    ensures CancelPass in r.trace <==> CancelPass in cleaned.trace
    ensures Alternates(started, r.trace) <==> Alternates(started, cleaned.trace)
    ensures StartedAfter(started, r.trace) == StartedAfter(started, cleaned.trace)
  {
    var t := before + cleaned.trace;
    assert t[..|before|] == before;
    assert (t + after)[..|before|] == before;
    assert [CloseSession][1..] == [];
    assert [AcknowledgeSessionExpiry][1..] == [];
    AlternatesAppend(started, before, cleaned.trace);
    AlternatesAppend(started, t, after);
    if cleaned.fault.Some? then Step(cleaned.follower, Escaped(cleaned.fault.value), t)
    else Step(cleaned.follower, Exit(reason), t + after)
  }

  /** The last queued trigger: cancel the pass in flight and launch a new one. */
  function Trigger(f: Follower, env: LoopEnv): (r: Step)
    ensures r.outcome == Continue && r.follower.passInFlight
    ensures !f.rebalancingCts.cancelled ==> !r.follower.rebalancingCts.cancelled
    ensures |r.trace| > 0 && r.trace[|r.trace| - 1] == LaunchPass
    ensures f.passInFlight ==> r.trace[0] == CancelPass
    ensures forall i :: 0 <= i < |r.trace| - 1 ==> r.trace[i] != LaunchPass
    ensures r.follower.ignoreWatches == f.ignoreWatches && r.follower.lifetimeCancelled == f.lifetimeCancelled
    // only the pass, its cancellation source, the store's state and the queue change;
    // the queue only gains the event the cancelled pass calls for
    ensures r.follower == f.(passInFlight := true, rebalancingCts := r.follower.rebalancingCts,
                             storeStarted := r.follower.storeStarted, events := r.follower.events)
    ensures !f.passInFlight ==> r.follower.events == f.events
    ensures f.passInFlight ==>
      (r.follower.events ==
       f.events + EventsOf(RespondToRebalancing(ProcessStatusChange(f.config.clientId, f.storeStarted, env.drain).outcome)))
    ensures Alternates(f.storeStarted, r.trace)
    ensures r.follower.storeStarted == StartedAfter(f.storeStarted, r.trace)
  {
    var cancelled := CancelRebalancingIfInProgress(f, env.drain);
    assert [LaunchPass][1..] == [];
    AlternatesAppend(f.storeStarted, cancelled.trace, [LaunchPass]);
    Step(cancelled.follower.(passInFlight := true), Continue, cancelled.trace + [LaunchPass])
  }

  /** One iteration of the event loop. */
  function LoopStep(f: Follower, env: LoopEnv): (r: Step)
    // cleanup's stop callback raising is the only exception that escapes an iteration
    ensures r.outcome.Escaped? ==> env.stopFault == Some(r.outcome.failure)
    // cancellation of the follower ends the loop after cleanup by closing the session
    ensures f.lifetimeCancelled ==> !r.outcome.Continue?
    ensures f.lifetimeCancelled && env.stopFault.None? ==> r.outcome == Exit(FollowerExitReason.Cancelled)
    ensures f.lifetimeCancelled && r.outcome.Exit? ==> |r.trace| > 0 && r.trace[|r.trace| - 1] == CloseSession
    // a disconnect that has lasted longer than the session timeout is an expiry
    ensures !f.lifetimeCancelled && SessionTimedOut(f) ==>
      |r.trace| > 0 && r.trace[0] == AcknowledgeSessionExpiry && !r.outcome.Continue?
    ensures !f.lifetimeCancelled && SessionTimedOut(f) && env.stopFault.None? ==>
      r.outcome == Exit(FollowerExitReason.SessionExpired)
    // nothing queued: wait
    ensures !f.lifetimeCancelled && !SessionTimedOut(f) && f.events == [] ==> r == Step(f, Continue, [])
    // otherwise the iteration takes the first queued event
    ensures !f.lifetimeCancelled && !SessionTimedOut(f) && f.events != [] ==> r == TakeEvent(f, env)
    // every exit has cleaned up: the stop callback ran and notifications are ignored
    ensures !r.outcome.Continue? ==>
      StopCallback in r.trace && r.follower.ignoreWatches && !r.follower.passInFlight
    ensures !r.outcome.Continue? ==> (f.passInFlight <==> CancelPass in r.trace)
    // an iteration that stays in the loop changes only the pass, its cancellation source,
    // the store's state and the queue, which keeps all but its head in order
    ensures r.outcome.Continue? ==>
      r.follower == f.(passInFlight := r.follower.passInFlight, rebalancingCts := r.follower.rebalancingCts,
                       storeStarted := r.follower.storeStarted, events := r.follower.events)
    ensures r.outcome.Continue? && f.events != [] ==>
      |r.follower.events| >= |f.events| - 1 && r.follower.events[..|f.events| - 1] == f.events[1..]
    ensures !f.rebalancingCts.cancelled ==> !r.follower.rebalancingCts.cancelled
    ensures Alternates(f.storeStarted, r.trace)
    ensures r.follower.storeStarted == StartedAfter(f.storeStarted, r.trace)
  {
    if f.lifetimeCancelled then
      Finish(f, env, [], FollowerExitReason.Cancelled, [CloseSession])
    else if SessionTimedOut(f) then
      Finish(f, env, [AcknowledgeSessionExpiry], FollowerExitReason.SessionExpired, [])
    else if f.events == [] then
      Step(f, Continue, [])
    else
      TakeEvent(f, env)
  }

  /** The iteration's reaction to the event at the head of the queue. Its
      contract states what every reaction keeps; TakeEventReaction states
      the reaction to each kind of event. */
  function TakeEvent(f: Follower, env: LoopEnv): (r: Step)
    requires f.events != []
    ensures r.outcome.Escaped? ==> env.stopFault == Some(r.outcome.failure)
    ensures !r.outcome.Continue? ==>
      StopCallback in r.trace && r.follower.ignoreWatches && !r.follower.passInFlight
    // leaving the loop cancels the pass in flight, and only then
    ensures !r.outcome.Continue? ==> (f.passInFlight <==> CancelPass in r.trace)
    // staying in the loop changes only the pass, its cancellation source, the store's state
    // and the queue, which loses its head and keeps the rest in order
    ensures r.outcome.Continue? ==>
      r.follower == f.(passInFlight := r.follower.passInFlight, rebalancingCts := r.follower.rebalancingCts,
                       storeStarted := r.follower.storeStarted, events := r.follower.events)
    ensures r.outcome.Continue? ==>
      |r.follower.events| >= |f.events| - 1 && r.follower.events[..|f.events| - 1] == f.events[1..]
    ensures !f.rebalancingCts.cancelled ==> !r.follower.rebalancingCts.cancelled
    ensures Alternates(f.storeStarted, r.trace)
    ensures r.follower.storeStarted == StartedAfter(f.storeStarted, r.trace)
  {
    var e := f.events[0];
    var taken := f.(events := f.events[1..]);
    if ExitReasonFor(e).Some? then Terminate(taken, env, e) else Coalesce(taken, env)
  }

  /** The reaction to each kind of event taken from the queue. */
  lemma TakeEventReaction(f: Follower, env: LoopEnv)
    requires f.events != []
    // a terminal event ends the loop with its own exit reason once cleanup succeeds
    ensures ExitReasonFor(f.events[0]).Some? ==> !TakeEvent(f, env).outcome.Continue?
    ensures ExitReasonFor(f.events[0]).Some? && env.stopFault.None? ==>
      TakeEvent(f, env).outcome == Exit(ExitReasonFor(f.events[0]).value)
    // a queued session expiry, and only it, is acknowledged before cleaning up
    ensures f.events[0] == FollowerEvent.SessionExpired <==>
      (|TakeEvent(f, env).trace| > 0 && TakeEvent(f, env).trace[0] == AcknowledgeSessionExpiry)
    // a trigger with more events behind it is skipped
    ensures |f.events| > 1 && f.events[0] == RebalancingTriggered ==>
      TakeEvent(f, env) == Step(f.(events := f.events[1..]), Continue, [])
    // the last trigger cancels the pass in flight and launches a new one
    ensures |f.events| == 1 && f.events[0] == RebalancingTriggered ==>
      var r := TakeEvent(f, env);
      r.outcome == Continue && r.follower.passInFlight &&
      |r.trace| > 0 && r.trace[|r.trace| - 1] == LaunchPass && (f.passInFlight ==> r.trace[0] == CancelPass) &&
      forall i :: 0 <= i < |r.trace| - 1 ==> r.trace[i] != LaunchPass
  {
    var e := f.events[0];
    var taken := f.(events := f.events[1..]);
    if ExitReasonFor(e).Some? {
      assert TakeEvent(f, env) == Terminate(taken, env, e);
    } else {
      assert TakeEvent(f, env) == Coalesce(taken, env);
    }
  }

  /** A trigger was just taken from the queue: it is skipped while other
      events remain queued, so only the last of a run of triggers acts. */
  function Coalesce(f: Follower, env: LoopEnv): (r: Step)
    ensures r.outcome == Continue
    ensures f.events != [] ==> r == Step(f, Continue, [])
    ensures f.events == [] ==>
      r.follower.passInFlight && |r.trace| > 0 && r.trace[|r.trace| - 1] == LaunchPass &&
      (f.passInFlight ==> r.trace[0] == CancelPass) &&
      forall i :: 0 <= i < |r.trace| - 1 ==> r.trace[i] != LaunchPass
    // only the pass, its cancellation source, the store's state and the queue change,
    // and the queue keeps what it held, in order
    ensures r.follower == f.(passInFlight := r.follower.passInFlight, rebalancingCts := r.follower.rebalancingCts,
                             storeStarted := r.follower.storeStarted, events := r.follower.events)
    ensures |r.follower.events| >= |f.events| && r.follower.events[..|f.events|] == f.events
    ensures !f.rebalancingCts.cancelled ==> !r.follower.rebalancingCts.cancelled
    ensures Alternates(f.storeStarted, r.trace)
    ensures r.follower.storeStarted == StartedAfter(f.storeStarted, r.trace)
  {
    if f.events != [] then Step(f, Continue, [])
    else
      var t := Trigger(f, env);
      assert t.follower.events[..0] == f.events;
      t
  }

  /** Leave the loop for the terminal event `e`; only a session expiry is
      acknowledged to the session before cleaning up. */
  function Terminate(f: Follower, env: LoopEnv, e: FollowerEvent): (r: Step)
    requires ExitReasonFor(e).Some?
    ensures !r.outcome.Continue?
    ensures env.stopFault.None? <==> r.outcome == Exit(ExitReasonFor(e).value)
    ensures r.outcome.Escaped? ==> env.stopFault == Some(r.outcome.failure)
    ensures e == FollowerEvent.SessionExpired <==> (|r.trace| > 0 && r.trace[0] == AcknowledgeSessionExpiry)
    ensures StopCallback in r.trace && r.follower.ignoreWatches && !r.follower.passInFlight
    ensures f.passInFlight <==> CancelPass in r.trace
    ensures r.follower == f.(ignoreWatches := true, passInFlight := false, rebalancingCts := r.follower.rebalancingCts,
                             storeStarted := false, events := r.follower.events)
    ensures !f.rebalancingCts.cancelled ==> !r.follower.rebalancingCts.cancelled
    ensures Alternates(f.storeStarted, r.trace)
    ensures r.follower.storeStarted == StartedAfter(f.storeStarted, r.trace)
  {
    var before := if e == FollowerEvent.SessionExpired then [AcknowledgeSessionExpiry] else [];
    Finish(f, env, before, ExitReasonFor(e).value, [])
  }

  /** Time passes: a running disconnect timer advances by `dt`. */
  function Elapse(f: Follower, dt: nat): (r: Follower)
    ensures r.disconnectedTimer.Running? <==> f.disconnectedTimer.Running?
    ensures r.disconnectedTimer.Running? ==> r.disconnectedTimer.elapsed == f.disconnectedTimer.elapsed + dt
    ensures r == f.(disconnectedTimer := r.disconnectedTimer)
  {
    match f.disconnectedTimer
    case Stopped => f
    case Running(e) => f.(disconnectedTimer := Running(e + dt))
  }

  /** Up to `|envs|` iterations of the loop, stopping at the first exit. */
  function LoopRun(f: Follower, envs: seq<LoopEnv>): Step
    decreases |envs|
  {
    if envs == [] then Step(f, Continue, [])
    else
      var s := LoopStep(f, envs[0]);
      if !s.outcome.Continue? then s
      else
        var rest := LoopRun(s.follower, envs[1..]);
        Step(rest.follower, rest.outcome, s.trace + rest.trace)
  }

  function Triggers(n: nat): (q: seq<FollowerEvent>)
    ensures |q| == n && forall i :: 0 <= i < n ==> q[i] == RebalancingTriggered
  {
    seq(n, _ => RebalancingTriggered)
  }

  /** Coalescing: with n triggers queued, n iterations launch exactly one
      pass, in the last iteration, after cancelling the pass in flight. */
  lemma {:induction false} TriggersCoalesce(f: Follower, envs: seq<LoopEnv>)
    requires |envs| > 0 && f.events == Triggers(|envs|)
    requires !f.lifetimeCancelled && !SessionTimedOut(f)
    ensures LoopRun(f, envs).outcome == Continue
    ensures LoopRun(f, envs).follower.passInFlight
    ensures |LoopRun(f, envs).trace| > 0 && LoopRun(f, envs).trace[|LoopRun(f, envs).trace| - 1] == LaunchPass
    ensures forall i :: 0 <= i < |LoopRun(f, envs).trace| - 1 ==> LoopRun(f, envs).trace[i] != LaunchPass
    ensures f.passInFlight ==> LoopRun(f, envs).trace[0] == CancelPass
    decreases |envs|
  {
    if |envs| == 1 {
      assert f.events == [RebalancingTriggered];
      var s := LoopStep(f, envs[0]);
      TakeEventReaction(f, envs[0]);
      assert LoopRun(s.follower, envs[1..]) == Step(s.follower, Continue, []);
      assert s.trace + [] == s.trace;
    } else {
      var s := LoopStep(f, envs[0]);
      TakeEventReaction(f, envs[0]);
      assert s == Step(f.(events := f.events[1..]), Continue, []);
      assert s.follower.events == Triggers(|envs| - 1);
      TriggersCoalesce(s.follower, envs[1..]);
      assert [] + LoopRun(s.follower, envs[1..]).trace == LoopRun(s.follower, envs[1..]).trace;
    }
  }

  function Sum(dts: seq<nat>): nat {
    if dts == [] then 0 else dts[0] + Sum(dts[1..])
  }

  /** Repeated disconnect notifications, each followed by `dts[i]` of time. */
  function Disconnections(f: Follower, path: string, replies: ZkReplies, dts: seq<nat>): Follower
    decreases |dts|
  {
    if dts == [] then f
    else
      var notified := Process(f, WatchedEvent(Disconnected, NoNodeEvent, path), replies).follower;
      Disconnections(Elapse(notified, dts[0]), path, replies, dts[1..])
  }

  /** Later disconnect notifications do not restart the timer: it measures
      the time since the first one. */
  lemma {:induction false} DisconnectTimerMeasuresFromFirst(f: Follower, path: string, replies: ZkReplies, dts: seq<nat>)
    requires !f.lifetimeCancelled && !f.ignoreWatches
    requires |dts| > 0 && f.disconnectedTimer == Stopped
    ensures Disconnections(f, path, replies, dts).disconnectedTimer == Running(Sum(dts))
    ensures Disconnections(f, path, replies, dts).events == f.events
    decreases |dts|
  {
    var notified := Process(f, WatchedEvent(Disconnected, NoNodeEvent, path), replies).follower;
    var g := Elapse(notified, dts[0]);
    assert g.disconnectedTimer == Running(dts[0]);
    if |dts| > 1 {
      RunningTimerAccumulates(g, path, replies, dts[1..]);
    }
  }

  lemma {:induction false} RunningTimerAccumulates(f: Follower, path: string, replies: ZkReplies, dts: seq<nat>)
    requires !f.lifetimeCancelled && !f.ignoreWatches
    requires f.disconnectedTimer.Running?
    ensures Disconnections(f, path, replies, dts).disconnectedTimer == Running(f.disconnectedTimer.elapsed + Sum(dts))
    ensures Disconnections(f, path, replies, dts).events == f.events
    decreases |dts|
  {
    if dts != [] {
      var notified := Process(f, WatchedEvent(Disconnected, NoNodeEvent, path), replies).follower;
      assert notified == f;
      RunningTimerAccumulates(Elapse(f, dts[0]), path, replies, dts[1..]);
    }
  }

  /** A disconnect not followed by a reconnection within the session timeout
      ends the loop with SessionExpired (after acknowledging the expiry to the
      service), however many further disconnects arrive meanwhile. */
  lemma DisconnectBecomesExpiry(f: Follower, path: string, replies: ZkReplies, dts: seq<nat>, env: LoopEnv)
    requires !f.lifetimeCancelled && !f.ignoreWatches
    requires |dts| > 0 && f.disconnectedTimer == Stopped
    requires Sum(dts) > f.config.sessionTimeout
    requires env.stopFault.None?
    ensures LoopStep(Disconnections(f, path, replies, dts), env).outcome == Exit(FollowerExitReason.SessionExpired)
    ensures LoopStep(Disconnections(f, path, replies, dts), env).trace[0] == AcknowledgeSessionExpiry
  {
    DisconnectTimerMeasuresFromFirst(f, path, replies, dts);
    DisconnectionsFrame(f, path, replies, dts);
  }

  lemma {:induction false} DisconnectionsFrame(f: Follower, path: string, replies: ZkReplies, dts: seq<nat>)
    ensures Disconnections(f, path, replies, dts).lifetimeCancelled == f.lifetimeCancelled
    ensures Disconnections(f, path, replies, dts).config == f.config
    decreases |dts|
  {
    if dts != [] {
      var notified := Process(f, WatchedEvent(Disconnected, NoNodeEvent, path), replies).follower;
      DisconnectionsFrame(Elapse(notified, dts[0]), path, replies, dts[1..]);
    }
  }
}

=== FILE: follower_state.dfy ===
/**
 * State of the follower role: its configuration, the queue of events fed by
 * watch notifications and rebalancing passes, the disconnect timer, the
 * bookkeeping of the single in-flight rebalancing pass, and the abstract trace
 * of actions the follower performs on the application and on the
 * coordination service.
 */
module FollowerState {
  import opened Wrappers
  import opened ClientPaths

  /** Events put on the follower's queue. */
  datatype FollowerEvent =
    | SessionExpired
    | IsNewLeader
    | PotentialInconsistentState
    | FatalError
    | RebalancingTriggered

  /** Why the event loop returned. */
  datatype FollowerExitReason =
    | SessionExpired
    | PossibleRoleChange
    | PotentialInconsistentState
    | FatalError
    | Cancelled

  datatype BecomeFollowerResult = Ok | WatchSiblingGone | Error

  /** The exceptions a coordination-service call or an application callback can raise. */
  datatype FailureKind =
    | ZkSessionExpired        // the session was lost
    | ZkOperationCancelled    // the call observed a cancelled token
    | ZkNoEphemeralNodeWatch  // the node to watch has already gone
    | InconsistentState       // the application reports a possibly inconsistent state
    | TerminateClient         // the application reports an unrecoverable error
    | OtherFailure            // any other exception

  /** Externally visible actions, recorded when they are invoked. */
  datatype Action =
    | StopCallback                      // the application's on-stop actions
    | StartCallback(resources: seq<string>)  // the application's on-start actions
    | CreateStoppedMarker               // this follower's stopped node is created
    | RemoveStoppedMarker               // this follower's stopped node is removed
    | AcknowledgeSessionExpiry          // the service is told the session is considered expired
    | CloseSession
    | CancelPass                        // the in-flight rebalancing pass is cancelled and awaited
    | LaunchPass                        // a new rebalancing pass is started in the background
  {
    /** Actions a rebalancing pass performs itself. */
    predicate IsPassAction() {
      StopCallback? || StartCallback? || CreateStoppedMarker? || RemoveStoppedMarker?
    }
  }

  /** The disconnect stopwatch; a stopped watch always reads zero because it
      is only ever reset, never paused. */
  datatype Timer = Stopped | Running(elapsed: nat)

  /** The cancellation source of the current rebalancing pass. */
  datatype TokenSource = TokenSource(generation: nat, cancelled: bool)

  datatype Config = Config(clientId: string, clientNumber: int, sessionTimeout: nat)

  datatype Follower = Follower(
    config: Config,
    lifetimeCancelled: bool,      // the follower's own cancellation token
    watchSiblingPath: string,
    siblingId: string,
    statusVersion: int,
    passInFlight: bool,           // a rebalancing task exists and has not completed
    rebalancingCts: TokenSource,
    events: seq<FollowerEvent>,
    ignoreWatches: bool,
    disconnectedTimer: Timer,
    storeStarted: bool)           // the resource store is in its started state

  /** Result of an operation that updates the follower and performs actions. */
  datatype Effect = Effect(follower: Follower, trace: seq<Action>)

  /** A new follower watching `watchSiblingPath`, over a store that is in the
      started state or not as it was handed over. None where the constructor
      throws, because the path contains no '/' to cut the sibling id at. */
  function NewFollower(config: Config, watchSiblingPath: string, lifetimeCancelled: bool, storeStarted: bool):
    (r: Option<Follower>)
    ensures r.Some? <==> '/' in watchSiblingPath
    ensures r.Some? ==> r.value.events == [] && r.value.disconnectedTimer == Stopped
    ensures r.Some? ==> !r.value.passInFlight && !r.value.rebalancingCts.cancelled && !r.value.ignoreWatches
    ensures r.Some? ==> r.value.config == config && r.value.lifetimeCancelled == lifetimeCancelled
    ensures r.Some? ==> r.value.storeStarted == storeStarted
    // the sibling id is the path's tail from its last '/'
    ensures r.Some? ==> r.value.watchSiblingPath == watchSiblingPath
    ensures r.Some? ==> r.value.siblingId == SiblingIdOf(watchSiblingPath).value
    ensures r.Some? ==>
      EndsWith(watchSiblingPath, r.value.siblingId) &&
      |r.value.siblingId| > 0 && r.value.siblingId[0] == '/' && '/' !in r.value.siblingId[1..]
  {
    match SiblingIdOf(watchSiblingPath)
    case None => None
    case Some(id) =>
      Some(Follower(config, lifetimeCancelled, watchSiblingPath, id, 0, false,
                    TokenSource(0, false), [], false, Stopped, storeStarted))
  }

  function Enqueue(f: Follower, e: FollowerEvent): Follower {
    f.(events := f.events + [e])
  }

  /** The disconnect timer has run for longer than the session timeout. */
  predicate SessionTimedOut(f: Follower) {
    f.disconnectedTimer.Running? && f.disconnectedTimer.elapsed > f.config.sessionTimeout
  }

  /** The exit reason an event ends the event loop with; None for the one
      event that does not end it. */
  function ExitReasonFor(e: FollowerEvent): (r: Option<FollowerExitReason>)
    ensures r.None? <==> e.RebalancingTriggered?
    ensures r.Some? ==> !r.value.Cancelled?
  {
    match e
    case SessionExpired => Some(FollowerExitReason.SessionExpired)
    case IsNewLeader => Some(PossibleRoleChange)
    case PotentialInconsistentState => Some(FollowerExitReason.PotentialInconsistentState)
    case FatalError => Some(FollowerExitReason.FatalError)
    case RebalancingTriggered => None
  }

  /** Distinct terminal events end the loop with distinct exit reasons. */
  lemma ExitReasonForIsOneToOne(e1: FollowerEvent, e2: FollowerEvent)
    requires ExitReasonFor(e1).Some? && ExitReasonFor(e1) == ExitReasonFor(e2)
    ensures e1 == e2
  {
  }

  /** Whether the resource store is started after an action: stopping clears
      it, starting sets it, everything else leaves it. */
  function AfterAction(started: bool, a: Action): bool {
    match a
    case StopCallback => false
    case StartCallback(_) => true
    case _ => started
  }

  /** Whether the store is started after a trace of actions. */
  function StartedAfter(started: bool, t: seq<Action>): bool
    decreases |t|
  {
    if t == [] then started else StartedAfter(AfterAction(started, t[0]), t[1..])
  }

  /** The barrier discipline on a trace: the start callback is only ever
      invoked while the store is stopped, so starts never overlap. */
  predicate Alternates(started: bool, t: seq<Action>)
    decreases |t|
  {
    t == [] || ((t[0].StartCallback? ==> !started) && Alternates(AfterAction(started, t[0]), t[1..]))
  }

  /** The barrier discipline and the store's state compose over concatenation. */
  lemma {:induction false} AlternatesAppend(started: bool, a: seq<Action>, b: seq<Action>)
    ensures Alternates(started, a + b) <==> Alternates(started, a) && Alternates(StartedAfter(started, a), b)
    ensures StartedAfter(started, a + b) == StartedAfter(StartedAfter(started, a), b)
    decreases |a|
  {
    if a == [] {
      assert a + b == b;
    } else {
      assert (a + b)[0] == a[0];
      assert (a + b)[1..] == a[1..] + b;
      AlternatesAppend(AfterAction(started, a[0]), a[1..], b);
    }
  }

  /** Independent reading of the barrier discipline: every start is preceded
      by a stop with no start in between (and, if the store starts out
      started, the first start is preceded by a stop). */
  predicate StopBetweenStarts(started: bool, t: seq<Action>) {
    forall j :: 0 <= j < |t| && t[j].StartCallback? ==>
      (exists k :: 0 <= k < j && t[k].StopCallback? && NoStartIn(t, k, j)) ||
      (!started && NoStartIn(t, 0, j))
  }

  predicate NoStartIn(t: seq<Action>, lo: int, hi: int)
    requires 0 <= lo <= hi <= |t|
  {
    forall i :: lo <= i < hi ==> !t[i].StartCallback?
  }

  /** The started flag after a prefix equals the effect of its last stop or
      start, or the initial flag when there is none. */
  lemma {:induction false} StartedAfterLastEffect(started: bool, t: seq<Action>, j: int)
    requires 0 <= j <= |t|
    ensures !StartedAfter(started, t[..j]) ==>
      (exists k :: 0 <= k < j && t[k].StopCallback? && NoStartIn(t, k, j)) || (!started && NoStartIn(t, 0, j))
    decreases j
  {
    if j > 0 {
      AlternatesAppend(started, t[..j - 1], [t[j - 1]]);
      assert t[..j - 1] + [t[j - 1]] == t[..j];
      assert [t[j - 1]][1..] == [];
      StartedAfterLastEffect(started, t, j - 1);
      if t[j - 1].StopCallback? {
        assert NoStartIn(t, j - 1, j);
      }
    }
  }

  /** The barrier discipline implies its positional reading. */
  lemma {:induction false} AlternatesStopBetweenStarts(started: bool, t: seq<Action>)
    requires Alternates(started, t)
    ensures StopBetweenStarts(started, t)
  {
    forall j | 0 <= j < |t| && t[j].StartCallback?
      ensures (exists k :: 0 <= k < j && t[k].StopCallback? && NoStartIn(t, k, j)) ||
              (!started && NoStartIn(t, 0, j))
    {
      AlternatesAppend(started, t[..j], t[j..]);
      assert t[..j] + t[j..] == t;
      assert t[j..][0] == t[j];
      StartedAfterLastEffect(started, t, j);
    }
  }
}

=== FILE: rebalancing.dfy ===
/**
 * The client side of the barrier protocol: one rebalancing pass reacting to
 * the phase published in the status node, run under a cancellable token, and
 * the classification of the exception a pass may end with.
 */
module Rebalancing {
  import opened Wrappers
  import opened Znodes
  import opened FollowerState

  /** When the pass's token reads as cancelled. A pass checks its token at
      numbered checkpoints (0 after reading the status, then 1 and 2 inside
      a phase); once cancellation is requested every later check sees it. */
  datatype Cancellation = NotCancelled | CancelledFrom(checkpoint: nat)

  predicate Observed(c: Cancellation, checkpoint: nat) {
    c.CancelledFrom? && c.checkpoint <= checkpoint
  }

  datatype RebalancingResult = Complete | Cancelled

  /** What the coordination service and the application do during one pass:
      the replies of the two reads, the exception (if any) each kind of write
      or callback raises, and when the token is cancelled. */
  datatype PassEnv = PassEnv(
    status: Result<StatusZnode, FailureKind>,
    resources: Result<ResourcesZnode, FailureKind>,
    stopFault: Option<FailureKind>,
    startFault: Option<FailureKind>,
    markerFault: Option<FailureKind>,
    cancel: Cancellation)

  /** A pass either returns a result or raises an exception, having performed `trace`. */
  datatype PassRun = PassRun(outcome: Result<RebalancingResult, FailureKind>, trace: seq<Action>)

  /** The fault an optional exception turns an action into. */
  function Attempt(fault: Option<FailureKind>, done: PassRun, t: seq<Action>): PassRun {
    if fault.Some? then PassRun(Failure(fault.value), t) else done
  }

  /** The phase of a status read that succeeded. */
  predicate PhaseIs(env: PassEnv, phase: RebalancingStatus) {
    env.status.Success? && env.status.value.status == phase
  }

  /** The phases a follower reacts to; the others are informational or unknown. */
  predicate ActsOn(phase: RebalancingStatus) {
    phase.StopActivity? || phase.ResourcesGranted?
  }

  /** One rebalancing pass of a follower whose store is `storeStarted`. */
  function ProcessStatusChange(clientId: string, storeStarted: bool, env: PassEnv): (run: PassRun)
    // a pass cancelled before it looks at the phase does nothing
    ensures env.status.Success? && Observed(env.cancel, 0) ==> run == PassRun(Success(RebalancingResult.Cancelled), [])
    // informational and unknown phases do nothing and complete
    ensures !Observed(env.cancel, 0) && env.status.Success? && !ActsOn(env.status.value.status) ==>
      run == PassRun(Success(Complete), [])
    // a completed pass did the whole of its phase's work
    ensures run.outcome == Success(Complete) && PhaseIs(env, StopActivity) ==>
      run.trace == [StopCallback, CreateStoppedMarker]
    ensures run.outcome == Success(Complete) && PhaseIs(env, ResourcesGranted) ==>
      env.resources.Success? && |run.trace| >= 2 && run.trace[|run.trace| - 1] == RemoveStoppedMarker &&
      run.trace[|run.trace| - 2] == StartCallback(AssignedTo(env.resources.value.assignments, clientId))
    // an exception is one the environment raised
    ensures run.outcome.Failure? ==>
      env.status == Failure(run.outcome.error) || env.resources == Failure(run.outcome.error) ||
      env.stopFault == Some(run.outcome.error) || env.startFault == Some(run.outcome.error) ||
      env.markerFault == Some(run.outcome.error)
    ensures Alternates(storeStarted, run.trace)
    // a pass reports Cancelled only when a checkpoint saw the token cancelled
    ensures run.outcome == Success(RebalancingResult.Cancelled) ==> Observed(env.cancel, 2)
    ensures run.outcome == Success(RebalancingResult.Cancelled) && PhaseIs(env, StopActivity) ==> Observed(env.cancel, 1)
    // an uncancelled pass in which every call succeeds completes its phase's work
    ensures (env.status.Success? && env.cancel.NotCancelled? &&
             env.stopFault.None? && env.startFault.None? && env.markerFault.None? &&
             (PhaseIs(env, ResourcesGranted) ==> env.resources.Success?)) ==>
      run.outcome == Success(Complete)
    // the status read failing aborts the pass before it does anything
    ensures env.status.Failure? ==> run == PassRun(Failure(env.status.error), [])
    // a raising call ends the pass with its exception at that call
    ensures PhaseIs(env, StopActivity) && !Observed(env.cancel, 0) && env.stopFault.Some? ==>
      run == PassRun(Failure(env.stopFault.value), [StopCallback])
    ensures PhaseIs(env, ResourcesGranted) && !Observed(env.cancel, 0) && env.resources.Failure? ==>
      run == PassRun(Failure(env.resources.error), [])
    ensures PhaseIs(env, ResourcesGranted) && !Observed(env.cancel, 0) && env.resources.Success? &&
            storeStarted && env.stopFault.Some? ==>
      run == PassRun(Failure(env.stopFault.value), [StopCallback])
    ensures PhaseIs(env, ResourcesGranted) && env.resources.Success? && !Observed(env.cancel, 1) &&
            !(storeStarted && env.stopFault.Some?) && env.startFault.Some? ==>
      run.outcome == Failure(env.startFault.value) && |run.trace| > 0 && run.trace[|run.trace| - 1].StartCallback?
    ensures CreateStoppedMarker in run.trace ==> env.stopFault.None?
    ensures RemoveStoppedMarker in run.trace ==> env.startFault.None? && (storeStarted ==> env.stopFault.None?)
    // a cancellation seen at a checkpoint the pass reaches ends it as Cancelled
    ensures PhaseIs(env, StopActivity) && env.stopFault.None? && Observed(env.cancel, 1) ==>
      run.outcome == Success(RebalancingResult.Cancelled)
    ensures PhaseIs(env, ResourcesGranted) && env.resources.Success? && !(storeStarted && env.stopFault.Some?) &&
            Observed(env.cancel, 1) ==>
      run.outcome == Success(RebalancingResult.Cancelled)
    ensures PhaseIs(env, ResourcesGranted) && env.resources.Success? && !(storeStarted && env.stopFault.Some?) &&
            env.startFault.None? && Observed(env.cancel, 2) ==>
      run.outcome == Success(RebalancingResult.Cancelled)
  {
    if env.status.Failure? then PassRun(Failure(env.status.error), [])
    else if Observed(env.cancel, 0) then PassRun(Success(RebalancingResult.Cancelled), [])
    else if PhaseIs(env, StopActivity) then StopActivityPass(env)
    else if PhaseIs(env, ResourcesGranted) then ResourcesGrantedPass(clientId, storeStarted, env)
    // StartConfirmed, and any phase the follower does not know, needs no action
    else PassRun(Success(Complete), [])
  }

  /** The stopping half of a pass: every action is one a pass may perform,
      a stop happens in StopActivity or to stop a started store in
      ResourcesGranted, and the stopped marker is created only after a stop
      in StopActivity, when no cancellation was seen after stopping. */
  lemma PassActionOrder(clientId: string, storeStarted: bool, env: PassEnv)
    ensures var run := ProcessStatusChange(clientId, storeStarted, env);
      (forall i :: 0 <= i < |run.trace| ==> run.trace[i].IsPassAction()) &&
      (forall i :: 0 <= i < |run.trace| && run.trace[i] == CreateStoppedMarker ==>
        PhaseIs(env, StopActivity) && !Observed(env.cancel, 1) && StopCallback in run.trace[..i]) &&
      (StopCallback in run.trace ==>
        PhaseIs(env, StopActivity) || (PhaseIs(env, ResourcesGranted) && storeStarted))
  {
  }

  /** The starting half of a pass: start is given this client's resources,
      after a stop when the store was already started, and only when no
      cancellation was seen before it; the stopped marker is removed only
      after start, when still not cancelled. */
  lemma PassStartOrder(clientId: string, storeStarted: bool, env: PassEnv)
    ensures var run := ProcessStatusChange(clientId, storeStarted, env);
      (forall i :: 0 <= i < |run.trace| && run.trace[i].StartCallback? ==>
        PhaseIs(env, ResourcesGranted) && !Observed(env.cancel, 1) && env.resources.Success? &&
        run.trace[i].resources == AssignedTo(env.resources.value.assignments, clientId) &&
        (storeStarted ==> StopCallback in run.trace[..i])) &&
      (forall i :: 0 <= i < |run.trace| && run.trace[i] == RemoveStoppedMarker ==>
        !Observed(env.cancel, 2) && exists j :: 0 <= j < i && run.trace[j].StartCallback?)
  {
    // spelling out the trace of each branch keeps the proof small
    var run := ProcessStatusChange(clientId, storeStarted, env);
    if PhaseIs(env, ResourcesGranted) && !Observed(env.cancel, 0) {
      assert run == ResourcesGrantedPass(clientId, storeStarted, env);
      if env.resources.Success? && !(storeStarted && env.stopFault.Some?) && !Observed(env.cancel, 1) {
        var granted := AssignedTo(env.resources.value.assignments, clientId);
        var stopped: seq<Action> := if storeStarted then [StopCallback] else [];
        var started := stopped + [StartCallback(granted)];
        assert started[|stopped|] == StartCallback(granted);
        if env.startFault.Some? || Observed(env.cancel, 2) {
          assert run.trace == started;
        } else {
          assert run.trace == started + [RemoveStoppedMarker];
        }
      } else {
        assert run.trace == [] || run.trace == [StopCallback];
      }
    } else if PhaseIs(env, StopActivity) && !Observed(env.cancel, 0) {
      assert run == StopActivityPass(env);
    } else {
      assert run.trace == [];
    }
  }

  /** StopActivity: stop, then (unless cancelled meanwhile) create the stopped marker. */
  function StopActivityPass(env: PassEnv): (run: PassRun)
    ensures |run.trace| > 0 && run.trace[0] == StopCallback
    ensures run.outcome == Success(RebalancingResult.Cancelled) ==> Observed(env.cancel, 1)
    ensures env.cancel.NotCancelled? && env.stopFault.None? && env.markerFault.None? ==>
      run.outcome == Success(Complete)
    ensures run.outcome == Success(Complete) ==> run.trace == [StopCallback, CreateStoppedMarker]
    ensures run.trace == [StopCallback] || (run.trace == [StopCallback, CreateStoppedMarker] && !Observed(env.cancel, 1))
    // a raising stop callback ends the pass with its exception, before the marker
    ensures env.stopFault.Some? ==> run == PassRun(Failure(env.stopFault.value), [StopCallback])
    ensures CreateStoppedMarker in run.trace ==> env.stopFault.None?
    // a cancellation seen after stopping ends the pass as Cancelled, without the marker
    ensures env.stopFault.None? && Observed(env.cancel, 1) ==>
      run == PassRun(Success(RebalancingResult.Cancelled), [StopCallback])
    // a failing marker write ends the pass with its exception, after the write
    ensures env.stopFault.None? && !Observed(env.cancel, 1) && env.markerFault.Some? ==>
      run == PassRun(Failure(env.markerFault.value), [StopCallback, CreateStoppedMarker])
  {
    var stopped := [StopCallback];
    if env.stopFault.Some? then PassRun(Failure(env.stopFault.value), stopped)
    else if Observed(env.cancel, 1) then PassRun(Success(RebalancingResult.Cancelled), stopped)
    else
      var marked := stopped + [CreateStoppedMarker];
      Attempt(env.markerFault, PassRun(Success(Complete), marked), marked)
  }

  /** ResourcesGranted: read the assignments, stop a store that is still
      started, then (unless cancelled) start with this client's resources and
      (unless cancelled meanwhile) remove the stopped marker. */
  function ResourcesGrantedPass(clientId: string, storeStarted: bool, env: PassEnv): (run: PassRun)
    ensures Alternates(storeStarted, run.trace)
    ensures run.outcome == Success(RebalancingResult.Cancelled) ==> Observed(env.cancel, 2)
    ensures (env.resources.Success? && env.cancel.NotCancelled? &&
             env.stopFault.None? && env.startFault.None? && env.markerFault.None?) ==>
      run.outcome == Success(Complete)
    // no stopped marker is created, and only a started store is stopped
    ensures forall i :: 0 <= i < |run.trace| ==> run.trace[i].IsPassAction() && run.trace[i] != CreateStoppedMarker
    ensures StopCallback in run.trace ==> storeStarted
    // a failing read, or a raising stop or start callback, ends the pass with its exception at that call
    ensures env.resources.Failure? ==> run == PassRun(Failure(env.resources.error), [])
    ensures env.resources.Success? && storeStarted && env.stopFault.Some? ==>
      run == PassRun(Failure(env.stopFault.value), [StopCallback])
    ensures env.resources.Success? && !(storeStarted && env.stopFault.Some?) && !Observed(env.cancel, 1) &&
            env.startFault.Some? ==>
      run.outcome == Failure(env.startFault.value) && |run.trace| > 0 &&
      run.trace[|run.trace| - 1] == StartCallback(AssignedTo(env.resources.value.assignments, clientId))
    ensures RemoveStoppedMarker in run.trace ==>
      env.resources.Success? && env.startFault.None? && (storeStarted ==> env.stopFault.None?)
    // a cancellation seen before start ends the pass as Cancelled, without starting
    ensures env.resources.Success? && !(storeStarted && env.stopFault.Some?) && Observed(env.cancel, 1) ==>
      run == PassRun(Success(RebalancingResult.Cancelled), if storeStarted then [StopCallback] else [])
    // a cancellation seen after a successful start ends it as Cancelled, without removing the marker
    ensures env.resources.Success? && !(storeStarted && env.stopFault.Some?) && !Observed(env.cancel, 1) &&
            env.startFault.None? && Observed(env.cancel, 2) ==>
      run.outcome == Success(RebalancingResult.Cancelled) && |run.trace| > 0 &&
      run.trace[|run.trace| - 1] == StartCallback(AssignedTo(env.resources.value.assignments, clientId))
    // a failing marker removal ends the pass with its exception, after the removal
    ensures RemoveStoppedMarker in run.trace && env.markerFault.Some? ==>
      run.outcome == Failure(env.markerFault.value) && run.trace[|run.trace| - 1] == RemoveStoppedMarker
  {
    if env.resources.Failure? then PassRun(Failure(env.resources.error), [])
    else
      var granted := AssignedTo(env.resources.value.assignments, clientId);
      var stopped: seq<Action> := if storeStarted then [StopCallback] else [];
      if storeStarted && env.stopFault.Some? then PassRun(Failure(env.stopFault.value), stopped)
      else if Observed(env.cancel, 1) then PassRun(Success(RebalancingResult.Cancelled), stopped)
      else
        var started := stopped + [StartCallback(granted)];
        if env.startFault.Some? then PassRun(Failure(env.startFault.value), started)
        else if Observed(env.cancel, 2) then PassRun(Success(RebalancingResult.Cancelled), started)
        else
          var unmarked := started + [RemoveStoppedMarker];
          assert [RemoveStoppedMarker][1..] == [];
          assert Alternates(true, [RemoveStoppedMarker]);
          assert [StartCallback(granted), RemoveStoppedMarker][1..] == [RemoveStoppedMarker];
          assert Alternates(false, [StartCallback(granted), RemoveStoppedMarker]);
          assert storeStarted ==> unmarked[1..] == [StartCallback(granted), RemoveStoppedMarker];
          Attempt(env.markerFault, PassRun(Success(Complete), unmarked), unmarked)
  }

  /** The event a finished pass puts on the queue, if any. */
  function RespondToRebalancing(outcome: Result<RebalancingResult, FailureKind>): (r: Option<FollowerEvent>)
    ensures r.None? <==> outcome.Success? || outcome.error == ZkOperationCancelled
    ensures r == Some(FollowerEvent.SessionExpired) <==> outcome == Failure(ZkSessionExpired)
    ensures r == Some(FollowerEvent.FatalError) <==> outcome == Failure(TerminateClient)
    ensures r == Some(FollowerEvent.PotentialInconsistentState) <==>
      outcome.Failure? && outcome.error !in {ZkSessionExpired, ZkOperationCancelled, TerminateClient}
    ensures r.Some? ==> !r.value.IsNewLeader? && !r.value.RebalancingTriggered?
  {
    match outcome
    case Success(_) => None
    case Failure(ZkSessionExpired) => Some(FollowerEvent.SessionExpired)
    case Failure(ZkOperationCancelled) => None
    case Failure(InconsistentState) => Some(FollowerEvent.PotentialInconsistentState)
    case Failure(TerminateClient) => Some(FollowerEvent.FatalError)
    case Failure(_) => Some(FollowerEvent.PotentialInconsistentState)
  }

  /** The queue entries for an optional event. */
  function EventsOf(e: Option<FollowerEvent>): seq<FollowerEvent> {
    if e.Some? then [e.value] else []
  }
}

=== FILE: sibling_order.dfy ===
/**
 * Sibling-watching leader election: among the live client registrations the
 * follower watches the one with the largest sequence number below its own;
 * a client with no such sibling is the leader.
 */
module SiblingOrder {
  import opened Wrappers
  import opened ClientPaths

  /** A live client registration: its path and the sequence number read from it. */
  datatype Client = Client(path: string, number: nat)

  /** Reads the sequence number of every path; None if any path does not parse
      (the leader check then fails as a whole). */
  function ParseClients(paths: seq<string>): (r: Option<seq<Client>>)
    ensures r.Some? <==> forall i :: 0 <= i < |paths| ==> SequenceNumber(paths[i]).Some?
    ensures r.Some? ==> |r.value| == |paths|
    ensures r.Some? ==> forall i :: 0 <= i < |paths| ==>
      r.value[i] == Client(paths[i], SequenceNumber(paths[i]).value)
    decreases |paths|
  {
    if paths == [] then Some([])
    else
      match SequenceNumber(paths[0])
      case None => None
      case Some(n) =>
        match ParseClients(paths[1..])
        case None => None
        case Some(rest) => Some([Client(paths[0], n)] + rest)
  }

  /** The running maximum of the scan, -1 before any candidate was found. */
  function BestNumber(best: Option<Client>): int {
    if best.None? then -1 else best.value.number
  }

  /** Position `k` holds a client below `self` that is strictly larger than
      every earlier client below `self`. */
  predicate FirstBest(cs: seq<Client>, self: int, k: int) {
    0 <= k < |cs| && cs[k].number < self &&
    forall i :: 0 <= i < k && cs[i].number < self ==> cs[i].number < cs[k].number
  }

  /** The sibling to watch: scanning the clients in order, keep the one whose
      number is larger than every candidate so far and below `self`. None when
      no client has a number below `self`, i.e. this client is the leader. */
  function Predecessor(cs: seq<Client>, self: int): (r: Option<Client>)
    ensures r.None? <==> forall i :: 0 <= i < |cs| ==> cs[i].number >= self
    ensures r.Some? ==> r.value in cs && r.value.number < self
    ensures r.Some? ==> forall i :: 0 <= i < |cs| && cs[i].number < self ==> cs[i].number <= r.value.number
    decreases |cs|
  {
    if cs == [] then None
    else
      var best := Predecessor(cs[..|cs| - 1], self);
      var c := cs[|cs| - 1];
      if c.number > BestNumber(best) && c.number < self then Some(c) else best
  }

  /** Ties are broken in favour of the earliest client in the list: the chosen
      sibling sits at a position where it beats every earlier candidate. */
  lemma {:induction false} PredecessorIsFirstBest(cs: seq<Client>, self: int)
    requires Predecessor(cs, self).Some?
    ensures exists k :: FirstBest(cs, self, k) && cs[k] == Predecessor(cs, self).value
    decreases |cs|
  {
    var pre := cs[..|cs| - 1];
    var best := Predecessor(pre, self);
    var c := cs[|cs| - 1];
    if c.number > BestNumber(best) && c.number < self {
      assert Predecessor(cs, self) == Some(c);
      forall i | 0 <= i < |cs| - 1 && cs[i].number < self
        ensures cs[i].number < c.number
      {
        assert pre[i] == cs[i];
      }
      assert FirstBest(cs, self, |cs| - 1);
    } else {
      assert Predecessor(cs, self) == best;
      PredecessorIsFirstBest(pre, self);
      var k :| FirstBest(pre, self, k) && pre[k] == best.value;
      assert forall i :: 0 <= i <= k ==> cs[i] == pre[i];
      assert FirstBest(cs, self, k);
    }
  }

  predicate DistinctNumbers(cs: seq<Client>) {
    forall i, j :: 0 <= i < j < |cs| ==> cs[i].number != cs[j].number
  }

  /** Index of a client with the smallest sequence number. */
  function MinIndex(cs: seq<Client>): (m: nat)
    requires |cs| > 0
    ensures m < |cs|
    ensures forall i :: 0 <= i < |cs| ==> cs[m].number <= cs[i].number
    decreases |cs|
  {
    if |cs| == 1 then 0
    else
      var m := MinIndex(cs[..|cs| - 1]);
      if cs[|cs| - 1].number < cs[m].number then |cs| - 1 else m
  }

  /** Among clients with distinct sequence numbers exactly one finds no
      predecessor, and that one holds the smallest number. */
  lemma {:induction false} ExactlyOneLeader(cs: seq<Client>)
    requires |cs| > 0
    requires DistinctNumbers(cs)
    ensures exists i :: 0 <= i < |cs| && Predecessor(cs, cs[i].number).None?
    ensures forall i, j ::
      (0 <= i < |cs| && 0 <= j < |cs| &&
       Predecessor(cs, cs[i].number).None? && Predecessor(cs, cs[j].number).None?) ==> i == j
    ensures forall i :: 0 <= i < |cs| && Predecessor(cs, cs[i].number).None? ==> i == MinIndex(cs)
  {
    var m := MinIndex(cs);
    assert Predecessor(cs, cs[m].number).None?;
    forall i, j | 0 <= i < |cs| && 0 <= j < |cs|
      && Predecessor(cs, cs[i].number).None? && Predecessor(cs, cs[j].number).None?
      ensures i == j
    {
      assert cs[j].number >= cs[i].number && cs[i].number >= cs[j].number;
    }
  }
}

=== FILE: watcher.dfy ===
/**
 * The follower's watch callback: a notification from the coordination
 * service (a session state plus, for node events, the node's path) updates
 * the disconnect timer and puts events on the queue. It never raises: every
 * failing call it makes becomes a queued event.
 */
module Watcher {
  import opened Wrappers
  import opened ClientPaths
  import opened SiblingOrder
  import opened FollowerState

  datatype KeeperState =
    | Disconnected
    | SyncConnected
    | AuthFailed
    | ConnectedReadOnly
    | SaslAuthenticated
    | Expired

  datatype EventType =
    | NoNodeEvent  // a pure session-state notification
    | NodeCreated
    | NodeDeleted
    | NodeDataChanged
    | NodeChildrenChanged

  datatype WatchedEvent = WatchedEvent(state: KeeperState, kind: EventType, path: string)

  /** The replies of the coordination service to the calls a notification can
      cause: listing the live clients, watching the new predecessor, and
      re-arming the status watch (which returns the status version). */
  datatype ZkReplies = ZkReplies(
    activeClients: Result<seq<string>, FailureKind>,
    siblingWatch: Option<FailureKind>,
    statusWatch: Result<int, FailureKind>)

  /** Whether a leader check ran and, if it did, whether it must be retried. */
  datatype CheckOutcome = NoCheck | CheckComplete | CheckRetry

  datatype Reaction = Reaction(follower: Follower, check: CheckOutcome)

  /** A callback leaves everything but the watch target, the status version,
      the timer and the queue alone, and queues at most one event. */
  predicate CallbackFrame(f: Follower, g: Follower) {
    g.config == f.config && g.lifetimeCancelled == f.lifetimeCancelled &&
    g.passInFlight == f.passInFlight && g.rebalancingCts == f.rebalancingCts &&
    g.ignoreWatches == f.ignoreWatches && g.storeStarted == f.storeStarted &&
    |f.events| <= |g.events| <= |f.events| + 1 && g.events[..|f.events|] == f.events
  }

  /** Every path carries a sequence number and none is below `self`. */
  predicate NoLiveClientBelow(paths: seq<string>, self: int) {
    forall i :: 0 <= i < |paths| ==>
      SequenceNumber(paths[i]).Some? && SequenceNumber(paths[i]).value >= self
  }

  /** An exception the leader check neither retries nor reports as session loss. */
  predicate OtherFault(e: FailureKind) {
    e != ZkSessionExpired && e != ZkNoEphemeralNodeWatch
  }

  /** Every path carries a sequence number and some is below `self`. */
  predicate SomeClientBelow(paths: seq<string>, self: int) {
    ParseClients(paths).Some? && !NoLiveClientBelow(paths, self)
  }

  /** `p` is a path of `paths` with the largest sequence number below `self`. */
  predicate IsPredecessorPath(paths: seq<string>, self: int, p: string) {
    p in paths && SequenceNumber(p).Some? && SequenceNumber(p).value < self &&
    forall i :: 0 <= i < |paths| && SequenceNumber(paths[i]).Some? && SequenceNumber(paths[i]).value < self ==>
      SequenceNumber(paths[i]).value <= SequenceNumber(p).value
  }

  /** One attempt of the leader check run when the watched sibling is deleted. */
  function PerformLeaderCheck(f: Follower, replies: ZkReplies): (r: Reaction)
    ensures r.check != NoCheck
    ensures CallbackFrame(f, r.follower)
    ensures r.follower.disconnectedTimer == f.disconnectedTimer
    // only the watch target, the sibling id and the queue may change, and the
    // first two only when there is a predecessor to watch
    ensures r.follower == f.(watchSiblingPath := r.follower.watchSiblingPath, siblingId := r.follower.siblingId,
                             events := r.follower.events)
    ensures !(replies.activeClients.Success? && SomeClientBelow(replies.activeClients.value, f.config.clientNumber)) ==>
      r.follower == f.(events := r.follower.events)
    ensures r.follower.events == f.events + [IsNewLeader] <==>
      replies.activeClients.Success? && NoLiveClientBelow(replies.activeClients.value, f.config.clientNumber)
    ensures r.follower.watchSiblingPath != f.watchSiblingPath ==>
      replies.activeClients.Success? &&
      IsPredecessorPath(replies.activeClients.value, f.config.clientNumber, r.follower.watchSiblingPath)
    ensures r.check == CheckRetry <==>
      replies.activeClients == Failure(ZkNoEphemeralNodeWatch) ||
      (replies.activeClients.Success? && r.follower.events == f.events &&
       replies.siblingWatch == Some(ZkNoEphemeralNodeWatch))
    ensures r.check == CheckComplete && r.follower.events == f.events ==>
      replies.activeClients.Success? && replies.siblingWatch.None? &&
      IsPredecessorPath(replies.activeClients.value, f.config.clientNumber, r.follower.watchSiblingPath) &&
      EndsWith(r.follower.watchSiblingPath, r.follower.siblingId)
    // a predecessor that exists is watched quietly when its path has a '/' and the watch succeeds
    ensures (replies.activeClients.Success? && SomeClientBelow(replies.activeClients.value, f.config.clientNumber) &&
             SiblingIdOf(r.follower.watchSiblingPath).Some? && replies.siblingWatch.None?) ==>
      r.check == CheckComplete && r.follower.events == f.events &&
      IsPredecessorPath(replies.activeClients.value, f.config.clientNumber, r.follower.watchSiblingPath)
    // session loss, from the listing or from the watch, queues SessionExpired
    ensures r.follower.events == f.events + [FollowerEvent.SessionExpired] <==>
      replies.activeClients == Failure(ZkSessionExpired) ||
      (replies.activeClients.Success? && SomeClientBelow(replies.activeClients.value, f.config.clientNumber) &&
       SiblingIdOf(r.follower.watchSiblingPath).Some? && replies.siblingWatch == Some(ZkSessionExpired))
    // every other exception queues PotentialInconsistentState
    ensures r.follower.events == f.events + [FollowerEvent.PotentialInconsistentState] <==>
      (replies.activeClients.Failure? &&
       OtherFault(replies.activeClients.error)) ||
      (replies.activeClients.Success? &&
       (ParseClients(replies.activeClients.value).None? ||
        (SomeClientBelow(replies.activeClients.value, f.config.clientNumber) &&
         (SiblingIdOf(r.follower.watchSiblingPath).None? ||
          (replies.siblingWatch.Some? && OtherFault(replies.siblingWatch.value))))))
  {
    if replies.activeClients.Success? then CheckAgainst(f, replies.activeClients.value, replies.siblingWatch)
    else if replies.activeClients.error == ZkNoEphemeralNodeWatch then Reaction(f, CheckRetry)
    else if replies.activeClients.error == ZkSessionExpired then
      Reaction(Enqueue(f, FollowerEvent.SessionExpired), CheckComplete)
    else Reaction(Enqueue(f, FollowerEvent.PotentialInconsistentState), CheckComplete)
  }

  /** The leader check against the listed client paths: watch the
      predecessor, or become leader when there is none. */
  function CheckAgainst(f: Follower, paths: seq<string>, siblingWatch: Option<FailureKind>): (r: Reaction)
    ensures r.check != NoCheck
    ensures CallbackFrame(f, r.follower)
    ensures r.follower.disconnectedTimer == f.disconnectedTimer
    ensures r.follower == f.(watchSiblingPath := r.follower.watchSiblingPath, siblingId := r.follower.siblingId,
                             events := r.follower.events)
    ensures !SomeClientBelow(paths, f.config.clientNumber) ==> r.follower == f.(events := r.follower.events)
    ensures r.follower.events == f.events + [IsNewLeader] <==> NoLiveClientBelow(paths, f.config.clientNumber)
    ensures r.follower.watchSiblingPath != f.watchSiblingPath ==>
      IsPredecessorPath(paths, f.config.clientNumber, r.follower.watchSiblingPath)
    ensures r.check == CheckRetry <==> r.follower.events == f.events && siblingWatch == Some(ZkNoEphemeralNodeWatch)
    ensures r.check == CheckComplete && r.follower.events == f.events ==>
      siblingWatch.None? &&
      IsPredecessorPath(paths, f.config.clientNumber, r.follower.watchSiblingPath) &&
      EndsWith(r.follower.watchSiblingPath, r.follower.siblingId)
    // when some live client is below ours, the check retargets to the predecessor ...
    ensures SomeClientBelow(paths, f.config.clientNumber) ==>
      IsPredecessorPath(paths, f.config.clientNumber, r.follower.watchSiblingPath)
    // ... and watches it quietly when the path has a '/' and the watch succeeds
    ensures (r.check == CheckComplete && r.follower.events == f.events) <==>
      SomeClientBelow(paths, f.config.clientNumber) &&
      SiblingIdOf(r.follower.watchSiblingPath).Some? && siblingWatch.None?
    ensures r.follower.events == f.events + [FollowerEvent.SessionExpired] <==>
      SomeClientBelow(paths, f.config.clientNumber) &&
      SiblingIdOf(r.follower.watchSiblingPath).Some? && siblingWatch == Some(ZkSessionExpired)
    // an unreadable listing, an unusable path or any other watch exception is reported
    ensures r.follower.events == f.events + [FollowerEvent.PotentialInconsistentState] <==>
      ParseClients(paths).None? ||
      (SomeClientBelow(paths, f.config.clientNumber) &&
       (SiblingIdOf(r.follower.watchSiblingPath).None? ||
        (siblingWatch.Some? && OtherFault(siblingWatch.value))))
  {
    match ParseClients(paths)
    case None => Reaction(Enqueue(f, FollowerEvent.PotentialInconsistentState), CheckComplete)
    case Some(cs) =>
      PredecessorOfPaths(paths, f.config.clientNumber);
      match Predecessor(cs, f.config.clientNumber)
      case None => Reaction(Enqueue(f, IsNewLeader), CheckComplete)
      case Some(c) => WatchPredecessor(f, c.path, siblingWatch)
  }

  /** Make `path` the watch target and try to watch it. */
  function WatchPredecessor(f: Follower, path: string, siblingWatch: Option<FailureKind>): (r: Reaction)
    ensures r.check != NoCheck
    ensures CallbackFrame(f, r.follower)
    ensures r.follower.disconnectedTimer == f.disconnectedTimer
    ensures r.follower.watchSiblingPath == path
    ensures SiblingIdOf(path).Some? ==> r.follower.siblingId == SiblingIdOf(path).value
    // a path without '/' throws before the sibling id is assigned
    ensures SiblingIdOf(path).None? ==> r.follower.siblingId == f.siblingId
    ensures r.follower == f.(watchSiblingPath := path, siblingId := r.follower.siblingId, events := r.follower.events)
    ensures r.follower.events == f.events || r.follower.events == f.events + [FollowerEvent.SessionExpired] ||
      r.follower.events == f.events + [FollowerEvent.PotentialInconsistentState]
    ensures r.check == CheckRetry <==> r.follower.events == f.events && siblingWatch == Some(ZkNoEphemeralNodeWatch)
    ensures r.check == CheckComplete && r.follower.events == f.events ==>
      siblingWatch.None? && EndsWith(path, r.follower.siblingId)
    // the watch is set quietly exactly when the path has a '/' and the watch succeeds
    ensures (r.check == CheckComplete && r.follower.events == f.events) <==>
      SiblingIdOf(path).Some? && siblingWatch.None?
    // session loss queues SessionExpired, any other exception PotentialInconsistentState
    ensures r.follower.events == f.events + [FollowerEvent.SessionExpired] <==>
      SiblingIdOf(path).Some? && siblingWatch == Some(ZkSessionExpired)
    ensures r.follower.events == f.events + [FollowerEvent.PotentialInconsistentState] <==>
      SiblingIdOf(path).None? ||
      (siblingWatch.Some? && OtherFault(siblingWatch.value))
  {
    var retargeted := f.(watchSiblingPath := path);
    match SiblingIdOf(path)
    case None => Reaction(Enqueue(retargeted, FollowerEvent.PotentialInconsistentState), CheckComplete)
    case Some(id) =>
      var watching := retargeted.(siblingId := id);
      if siblingWatch.None? then Reaction(watching, CheckComplete)
      else if siblingWatch.value == ZkNoEphemeralNodeWatch then Reaction(watching, CheckRetry)
      else if siblingWatch.value == ZkSessionExpired then
        Reaction(Enqueue(watching, FollowerEvent.SessionExpired), CheckComplete)
      else Reaction(Enqueue(watching, FollowerEvent.PotentialInconsistentState), CheckComplete)
  }

  /** The selection over parsed clients, read back on the paths themselves. */
  lemma PredecessorOfPaths(paths: seq<string>, self: int)
    requires ParseClients(paths).Some?
    ensures Predecessor(ParseClients(paths).value, self).None? <==> NoLiveClientBelow(paths, self)
    ensures Predecessor(ParseClients(paths).value, self).Some? ==>
      IsPredecessorPath(paths, self, Predecessor(ParseClients(paths).value, self).value.path)
  {
  }

  /** Re-arm the status watch after the status node changed; on success record
      its version and trigger rebalancing. */
  function SendTriggerRebalancingEvent(f: Follower, statusWatch: Result<int, FailureKind>): (r: Follower)
    ensures CallbackFrame(f, r)
    ensures r.events == f.events + [if statusWatch.Success? then RebalancingTriggered else FollowerEvent.PotentialInconsistentState]
    ensures r.statusVersion == if statusWatch.Success? then statusWatch.value else f.statusVersion
    // nothing else changes: the watch target, the sibling id and the timer stay
    ensures r == f.(statusVersion := r.statusVersion, events := r.events)
  {
    match statusWatch
    case Success(version) => Enqueue(f.(statusVersion := version), RebalancingTriggered)
    case Failure(_) => Enqueue(f, FollowerEvent.PotentialInconsistentState)
  }

  predicate IsConnected(s: KeeperState) {
    s == SyncConnected || s == ConnectedReadOnly
  }

  /** The watch callback. */
  function Process(f: Follower, ev: WatchedEvent, replies: ZkReplies): (r: Reaction)
    // a cancelled follower, or one that has begun cleaning up, ignores notifications
    ensures f.lifetimeCancelled || f.ignoreWatches ==> r == Reaction(f, NoCheck)
    ensures CallbackFrame(f, r.follower)
    ensures r.check != NoCheck ==> IsConnected(ev.state) && ev.kind == NodeDeleted && EndsWith(ev.path, f.siblingId)
    ensures !f.lifetimeCancelled && !f.ignoreWatches ==>
      match ev.state
      // expiry queues SessionExpired and nothing else
      case Expired => r.follower == Enqueue(f, FollowerEvent.SessionExpired)
      // a disconnect starts the timer; an already running timer is left as it is
      case Disconnected =>
        r == Reaction(f.(disconnectedTimer := if f.disconnectedTimer.Running? then f.disconnectedTimer else Running(0)),
                      NoCheck)
      // a connection (re)established resets the timer
      case SyncConnected | ConnectedReadOnly =>
        r.follower.disconnectedTimer == Stopped &&
        (ev.kind == NodeDeleted && !EndsWith(ev.path, f.siblingId) ==>
           r == Reaction(Enqueue(f.(disconnectedTimer := Stopped), FollowerEvent.PotentialInconsistentState), NoCheck)) &&
        // the sibling's deletion runs the leader check
        (ev.kind == NodeDeleted && EndsWith(ev.path, f.siblingId) ==>
           r == PerformLeaderCheck(f.(disconnectedTimer := Stopped), replies)) &&
        // a status change re-arms the status watch and triggers rebalancing
        (ev.kind == NodeDataChanged && EndsWith(ev.path, "status") ==>
           r == Reaction(SendTriggerRebalancingEvent(f.(disconnectedTimer := Stopped), replies.statusWatch), NoCheck) &&
           (r.follower.events == f.events + [RebalancingTriggered] <==> replies.statusWatch.Success?) &&
           (replies.statusWatch.Failure? ==> r.follower.events == f.events + [FollowerEvent.PotentialInconsistentState])) &&
        (ev.kind != NodeDeleted && !(ev.kind == NodeDataChanged && EndsWith(ev.path, "status")) ==>
           r.follower == f.(disconnectedTimer := Stopped))
      // any other state is unsupported and is reported as a potential inconsistency
      case _ => r.follower == Enqueue(f, FollowerEvent.PotentialInconsistentState)
  {
    if f.lifetimeCancelled || f.ignoreWatches then Reaction(f, NoCheck)
    else
      match ev.state
      case Expired => Reaction(Enqueue(f, FollowerEvent.SessionExpired), NoCheck)
      case Disconnected =>
        if f.disconnectedTimer.Running? then Reaction(f, NoCheck)
        else Reaction(f.(disconnectedTimer := Running(0)), NoCheck)
      case SyncConnected => Connected(f, ev, replies)
      case ConnectedReadOnly => Connected(f, ev, replies)
      case _ => Reaction(Enqueue(f, FollowerEvent.PotentialInconsistentState), NoCheck)
  }

  /** A notification in a connected state: reset the timer, then react to the node event. */
  function Connected(f: Follower, ev: WatchedEvent, replies: ZkReplies): (r: Reaction)
    ensures CallbackFrame(f, r.follower)
    ensures r.follower.disconnectedTimer == Stopped
    ensures ev.kind == NodeDeleted && EndsWith(ev.path, f.siblingId) ==>
      r == PerformLeaderCheck(f.(disconnectedTimer := Stopped), replies)
    ensures ev.kind == NodeDeleted && !EndsWith(ev.path, f.siblingId) ==>
      r == Reaction(Enqueue(f.(disconnectedTimer := Stopped), FollowerEvent.PotentialInconsistentState), NoCheck)
    ensures ev.kind == NodeDataChanged && EndsWith(ev.path, "status") ==>
      r == Reaction(SendTriggerRebalancingEvent(f.(disconnectedTimer := Stopped), replies.statusWatch), NoCheck)
  {
    var reset := f.(disconnectedTimer := Stopped);
    if ev.kind == NodeDeleted then
      if EndsWith(ev.path, f.siblingId) then PerformLeaderCheck(reset, replies)
      else Reaction(Enqueue(reset, FollowerEvent.PotentialInconsistentState), NoCheck)
    else if ev.kind == NodeDataChanged && EndsWith(ev.path, "status") then
      Reaction(SendTriggerRebalancingEvent(reset, replies.statusWatch), NoCheck)
    else Reaction(reset, NoCheck)
  }

  /** The registration path of the client with sequence number `n`. */
  function ClientPath(n: nat): string {
    "/clients/c_" + PadDigits(n, SuffixLength)
  }

  /** Three clients numbered 1, 2 and 3 join; client 2's session expires.
      Client 3, which watched client 2, is told of the deletion, finds client
      1 as its new predecessor and does not become leader. */
  lemma ThreeClientScenario(f: Follower, replies: ZkReplies)
    requires f.config.clientNumber == 3 && !f.lifetimeCancelled && !f.ignoreWatches
    requires f.siblingId == "/c_" + PadDigits(2, SuffixLength)
    requires replies.activeClients == Success([ClientPath(1), ClientPath(3)]) && replies.siblingWatch.None?
    ensures Process(f, WatchedEvent(SyncConnected, NodeDeleted, ClientPath(2)), replies).follower.watchSiblingPath
      == ClientPath(1)
    ensures Process(f, WatchedEvent(SyncConnected, NodeDeleted, ClientPath(2)), replies).follower.events
      == f.events
  {
    var ev := WatchedEvent(SyncConnected, NodeDeleted, ClientPath(2));
    assert ClientPath(2) == "/clients" + f.siblingId;
    assert EndsWith(ev.path, f.siblingId);
    var reset := f.(disconnectedTimer := Stopped);
    assert Process(f, ev, replies) == PerformLeaderCheck(reset, replies);
    ClientThreeWatchesClientOne(reset, replies);
  }

  lemma ClientThreeWatchesClientOne(h: Follower, replies: ZkReplies)
    requires h.config.clientNumber == 3
    requires replies.activeClients == Success([ClientPath(1), ClientPath(3)]) && replies.siblingWatch.None?
    ensures PerformLeaderCheck(h, replies).follower.watchSiblingPath == ClientPath(1)
    ensures PerformLeaderCheck(h, replies).follower.events == h.events
  {
    var paths := [ClientPath(1), ClientPath(3)];
    var cs := [Client(ClientPath(1), 1), Client(ClientPath(3), 3)];
    ScenarioClientsParse();
    assert Predecessor(cs[..1], 3) == Some(cs[0]);
    assert Predecessor(cs, 3) == Some(cs[0]);
    assert CheckAgainst(h, paths, None) == WatchPredecessor(h, ClientPath(1), None);
    ClientPathHasSlash(1);
  }

  lemma ScenarioClientsParse()
    ensures ParseClients([ClientPath(1), ClientPath(3)]) == Some([Client(ClientPath(1), 1), Client(ClientPath(3), 3)])
  {
    SequenceNumberOfSequentialPath("/clients/c_", 1);
    SequenceNumberOfSequentialPath("/clients/c_", 3);
    var paths := [ClientPath(1), ClientPath(3)];
    var cs := [Client(ClientPath(1), 1), Client(ClientPath(3), 3)];
    assert forall i :: 0 <= i < |paths| ==> SequenceNumber(paths[i]).Some?;
    var parsed := ParseClients(paths).value;
    assert |parsed| == 2 && parsed[0] == cs[0] && parsed[1] == cs[1];
    assert parsed == cs;
  }

  lemma ClientPathHasSlash(n: nat)
    ensures SiblingIdOf(ClientPath(n)).Some?
  {
  }

  /** In the same group, client 1 finds no predecessor and becomes leader. */
  lemma LowestClientBecomesLeader(g: Follower, replies: ZkReplies)
    requires g.config.clientNumber == 1
    requires replies.activeClients == Success([ClientPath(1), ClientPath(2), ClientPath(3)])
    ensures PerformLeaderCheck(g, replies).follower.events == g.events + [IsNewLeader]
  {
    SequenceNumberOfSequentialPath("/clients/c_", 1);
    SequenceNumberOfSequentialPath("/clients/c_", 2);
    SequenceNumberOfSequentialPath("/clients/c_", 3);
    assert NoLiveClientBelow(replies.activeClients.value, 1);
  }
}

=== FILE: wrappers.dfy ===
/**
 * Option and Result datatypes used throughout the model: an optional value,
 * and the outcome of a call that either returns a value or raises one of the
 * exceptions of the coordination service or of the application callbacks.
 */
module Wrappers {

  /** A value that may be absent (a null reference or a call that returns nothing). */
  datatype Option<+T> = None | Some(value: T)

  /** The result of a call that either succeeds with a value or raises `error`. */
  datatype Result<+T, +E> = Success(value: T) | Failure(error: E)
}

=== FILE: znodes.dfy ===
/**
 * The contents of the coordination-service nodes the follower reads: the
 * status node (the barrier phase the leader has published, with its version)
 * and the resources node (resource catalogue, assignment list and version).
 */
module Znodes {

  /** The barrier phase written into the status node by the leader. */
  datatype RebalancingStatus =
    | StopActivity
    | ResourcesGranted
    | StartConfirmed
    | OtherStatus(code: int)  // any phase value this client does not recognise

  datatype StatusZnode = StatusZnode(status: RebalancingStatus, version: int)

  /** One entry of the assignment list: `resource` is owned by `clientId`. */
  datatype ResourceAssignment = ResourceAssignment(clientId: string, resource: string)

  datatype ResourcesZnode = ResourcesZnode(
    assignments: seq<ResourceAssignment>,
    resources: seq<string>,
    version: int)

  /** The resources the assignment list gives to `clientId`, in list order. */
  function AssignedTo(assignments: seq<ResourceAssignment>, clientId: string): (r: seq<string>)
    ensures |r| <= |assignments|
    ensures forall x :: x in r <==>
      exists a :: a in assignments && a.clientId == clientId && a.resource == x
    decreases |assignments|
  {
    if assignments == [] then []
    else
      var rest := AssignedTo(assignments[1..], clientId);
      assert forall a :: a in assignments <==> a == assignments[0] || a in assignments[1..];
      if assignments[0].clientId == clientId then [assignments[0].resource] + rest else rest
  }

  /** The filter keeps the order of the list: filtering a concatenation
      concatenates the filtered parts. Together with the one-element case
      this determines `AssignedTo` completely. */
  lemma {:induction false} AssignedToAppend(a: seq<ResourceAssignment>, b: seq<ResourceAssignment>, clientId: string)
    ensures AssignedTo(a + b, clientId) == AssignedTo(a, clientId) + AssignedTo(b, clientId)
    decreases |a|
  {
    if a == [] {
      assert a + b == b;
    } else {
      assert (a + b)[0] == a[0];
      assert (a + b)[1..] == a[1..] + b;
      AssignedToAppend(a[1..], b, clientId);
    }
  }

  /** A single assignment contributes its resource exactly when it names `clientId`. */
  lemma AssignedToSingle(a: ResourceAssignment, clientId: string)
    ensures AssignedTo([a], clientId) == if a.clientId == clientId then [a.resource] else []
  {
  }
}
